=== FILE: README.md ===
# SchemaMocker in Dafny

A model of the schema-to-mock engine `SchemaMocker` of raml-1-mocker (`src/dataMocker.js`).
Given a RAML runtime type tree and a read-only registry of type declarations, the engine builds
a mock value:

- a union samples one candidate from both of its branches;
- an array type draws an item count and parses its component type that many times;
- a structured type becomes an object whose fields come from a first-match priority chain,
  with the mocks of its supertypes merged in;
- strings, numbers, integers and booleans come from the primitive generators.

## Layout

| file | module | contents |
|---|---|---|
| `wrappers.dfy` | `Wrappers` | `Option`, `Result` |
| `values.dfy` | `MockValues` | the mock value datatype, JavaScript truthiness, `_magicPush` and the pool it builds, the `_.extend` fold `MergeAll`, lodash's `_.uniq` |
| `randomness.dfy` | `Randomness` | the `Host` of oracles, `_.random`, `_.sample`, `faker.random.number`, `_.times` |
| `decimal.dfy` | `Decimal` | `_getMinFloat` and `_toFloat` |
| `schema.dfy` | `Schema` | runtime type nodes, type declarations, the registry, errors |
| `primitives.dfy` | `Primitives` | `string`, `numberBase`, `number`, `integer`, `boolean`, `null` |
| `keyorder.dfy` | `KeyOrder` | a fixed order for an object's keys, used to enumerate `_.values` |
| `engine.dfy` | `Engine` | what `parse`, `array`, `object`, `getMockForType`, `getCustomPropertyType`, `fillProperties`, `getPropValue` and `runtimeParse` compute, as functions, and the lemmas about them |
| `mocker.dfy` | `Mocker` | the same operations as methods with the source's loops, each proved to compute its `Engine` function |

## How it is modelled

- **Randomness and foreign generators are a `Host` of oracle functions.** This covers
  `Math.random` (a stream of values in [0, 1) indexed by position), randexp, `faker.lorem.words`,
  number-to-text and `parseFloat`. Every draw takes a position and returns the next one, so the
  engine changes no state. lodash's own arithmetic is written out on top of the unit draw:
  `_.random` swaps reversed bounds and draws a whole number unless asked for a floating one or
  either bound is fractional (so `integer()` with a fractional bound draws fractions);
  `_.sample` of an empty array is `undefined` and takes no draw.
- **The engine is specified by mutually recursive functions** in `Engine`: `ParseResult`,
  `ArrayResult`, `ObjectResult`, `MockForType`, `FilledProperties`, `PropValue`, `RuntimeMock`.
  Each loop of the source is a left fold that carries the loop's accumulator and the draw
  position:
  - `ItemsFold` is the `_.times` loop of `array`;
  - `SuperFold` is the supertype loop of `object`;
  - `FillFold` is the property loop of `fillProperties`;
  - `RuntimeFold` is the supertype loop of `runtimeParse`.
- **Each fold has a list view** of what each step produced: `ItemsResult`, `SuperMocks`,
  `PropertyValues` and `ParentMocks`. A lemma proves each fold equal to pushing, merging or
  storing those results in turn: `ItemsFoldIsPool`, `SuperFoldIsMerge`, `FillFoldIsAssemble` and
  `RuntimeFoldIsMerge`. The merge and pool orders are stated against the list views.
- **The methods in `Mocker` run the loops as the source does.** Each method's `ensures` says its
  result is exactly the `Engine` function, so every lemma about the function holds of the method.
- **The union branch is two functions.** `UnionResult` parses the left branch and
  `UnionRight` the right branch and the sample (with the methods `ParseUnion` and
  `ParseUnionRight`); the split only keeps each proof small, and `UnionPool` states the union
  branch of src/dataMocker.js:18-21 as one step.
- **Registry lookups can cycle**, so everything takes a `fuel` bound. `parse` spends one unit
  per level, as does each step along a chain of custom property types.
- **Failures are `Result` values.** The source throws in these cases:
  - randexp given a pattern it cannot compile;
  - an array type with no supertypes, which calls `array(undefined)`;
  - an array's supertype without a component type;
  - an object-kind property without a runtime type.
- **Facets** (`minimum`, `maximum`, `multipleOf`, `minLength`, `minItems`, …) are `undefined`,
  `null` or a number. This keeps the source's `||`, `=== null`, `!== undefined` and `_.isNumber`
  tests exact.

## Behaviour the contracts make explicit

- `runtimeParse` merges the supertype mocks *over* the filled properties. Inside
  `getMockForType`, a supertype's field therefore overrides the type's own field of the same
  name (`Engine.MockForTypeDiscriminator`, `Engine.RuntimeMockMerge`).
- In `object`, the definition's own mock overrides every supertype mock (`Engine.ObjectMerge`).
- Every element `array` collects is a freshly built object. `_.uniq` compares objects by
  reference (SameValueZero), so it can never drop one, and `uniqueItems` removes nothing
  (`Engine.ArrayItems`).
- Take an array whose component is neither a union, an array nor a structured type, for example
  `boolean[]`. It yields `[]`, because `parse` yields `[]` for such a component and
  `_magicPush` flattens it away (`Engine.ParseResult`, `Engine.ArrayItems`).
- `runtimeParse` resolves its discriminator value once. A truthy value passed in is used for
  every supertype; a falsy one is replaced by the type's own `discriminatorValue()`
  (`Engine.RuntimeMockDiscriminator`). An object-kind property calls it without a value, so its
  supertypes receive the property's own `discriminatorValue()`.
- In the `multipleOf` branch, a `null` maximum compares as 0. With a positive `multipleOf` the
  multiplier range is then [0, 0] and the mock is 0 (`Primitives.MultipleOfDegenerate`).
- Boundary avoidance in the default number branch does nothing when the drawn `littleGap` is
  0. It also cannot move a value off the maximum when the bounds are exactly `littleGap` apart
  (`Primitives.Nudge`).

## Model

| member | source | states |
|---|---|---|
| MockValues.MagicPush | src/dataMocker.js:299-309 | a falsy element leaves the array unchanged; an array element is concatenated in order; any other element is appended once |
| MockValues.PoolSnoc | src/dataMocker.js:157-159 | the pool of one more value is that value `_magicPush`ed onto the pool of the earlier ones, so the pool is what the push loop builds |
| MockValues.PoolLength | src/dataMocker.js:157-159 | when every pushed value is truthy and not an array, the pool is exactly those values, so its length is the loop count |
| MockValues.PoolOfShaped | src/dataMocker.js:157-159 | pushing parse results (objects, undefined, arrays of objects) only ever adds objects |
| MockValues.Unwrap | src/dataMocker.js:77 | the list `_.each` walks is the array's elements, or exactly the one-element list of the value itself; for a parse result every entry is an object or undefined |
| MockValues.MergeAllSnoc | src/dataMocker.js:75-80 | merging one more mock is a right-biased union over the accumulated object |
| MockValues.MergeAllAppend | src/dataMocker.js:75-80 | merging two lists one after the other is merging their concatenation |
| MockValues.MergeAllCons | src/dataMocker.js:130-132 | merging a first mock and then the rest is merging the whole list |
| MockValues.MergeAllKeys | src/dataMocker.js:130-132 | a field is in the merged object iff it is in the starting object or in some merged mock |
| MockValues.MergeAllGrows | src/dataMocker.js:75-80 | merging never loses a field of the starting object |
| MockValues.MergeAllLastWins | src/dataMocker.js:130-132 | a field takes its value from the last merged mock that has it |
| MockValues.MergeAllKeepsAcc | src/dataMocker.js:75-80 | a field that no merged mock has keeps the starting object's value |
| MockValues.UniqNoDuplicates | src/dataMocker.js:161-163 | no two elements of `_.uniq`'s result are SameValueZero-equal |
| MockValues.UniqSameElements | src/dataMocker.js:161-163 | `_.uniq` keeps exactly the elements of its input and never lengthens it |
| MockValues.UniqPrefix | src/dataMocker.js:161-163 | first occurrences are kept in order: deduplicating a prefix gives a prefix of deduplicating the whole |
| MockValues.UniqOfDistinct | src/dataMocker.js:161-163 | an array with no SameValueZero-equal pair is returned unchanged |
| Randomness.Random | src/dataMocker.js:157 | `_.random` lies between the two bounds in either order, is whole unless floating or a bound is fractional, and takes one draw |
| Randomness.Sample | src/dataMocker.js:21 | `_.sample` of an empty array is undefined without a draw; otherwise a member, with one draw |
| Randomness.FakerNumber | src/dataMocker.js:263 | `faker.random.number(max)` lies in [0, max] |
| Randomness.Times | src/dataMocker.js:157 | `_.times` runs its count truncated toward zero, and not at all below 1 or above `Number.MAX_SAFE_INTEGER` |
| Decimal.GetMinFloat | src/dataMocker.js:289-292 | the result is at least 1 and at most one more than the text's length |
| Decimal.MinFloatSkip | src/dataMocker.js:290 | the regex search passes over characters that are not '.' without effect |
| Decimal.GetMinFloatNoDot | src/dataMocker.js:289-292 | a text without '.' gives 1 |
| Decimal.GetMinFloatDecimal | src/dataMocker.js:289-292 | for decimal text `int.digits`, the result is 1 plus the number of '0's right after the point |
| Decimal.GetMinFloatExponent | src/dataMocker.js:289-292 | a '.' followed by anything but digits to the end (as in `1.5e-7`) gives 1 |
| Decimal.IndexOf | src/dataMocker.js:277 | `indexOf` is -1 exactly when the character is absent, else its first position |
| Decimal.TruncateDecimal | src/dataMocker.js:275-282 | the result is a prefix of the text; unchanged without a '.' after the first character; otherwise it keeps the point and at most `len` digits after it, exactly `len` when the fraction is longer |
| Decimal.ToFloat | src/dataMocker.js:275-282 | a number whose text has no '.' after the first character, or no more than `len` fractional digits, is parsed back from its whole text |
| Primitives.StripDelimiters | src/dataMocker.js:177 | the pattern handed to randexp is the pattern without its first and last character |
| Primitives.Trim | src/dataMocker.js:184 | `trim` removes exactly the white space at both ends and keeps the middle |
| Primitives.Prefix | src/dataMocker.js:184 | `substring(0, n)` is a prefix: exactly `n` characters (truncated) when 0 ≤ n ≤ length, the whole text when n reaches the length, never more than `n` |
| Primitives.StringLengthRange | src/dataMocker.js:181-182 | a truthy `minLength` is used, else 1; a truthy `maxLength` is used, else max(50, minLength) |
| Primitives.StringLength | src/dataMocker.js:183 | the drawn string length lies in [minLength, maxLength] |
| Primitives.String | src/dataMocker.js:174-186 | a pattern wins and fails iff randexp rejects the stripped pattern; otherwise a non-empty enum gives a member; otherwise a string no longer than the drawn length |
| Primitives.MultiplierRange | src/dataMocker.js:228-238 | [1, 5] without a maximum; [1, floor(maximum / m)] when the maximum is at least m; [0, 0] for a smaller maximum or a null one with m > 0 |
| Primitives.Multiplier | src/dataMocker.js:228-239 | the multiplier lies in its range and is whole in integer mode |
| Primitives.MultipleFacts | src/dataMocker.js:228-239 | without a maximum the multiplier is in [1, 5]; with a maximum m ≤ max the value is in [m, max]; with a smaller or null maximum it is 0 |
| Primitives.NumericRange | src/dataMocker.js:241-242 | a numeric minimum or maximum is used as it is; otherwise -99999999999 and 99999999999 |
| Primitives.PrecisionBudget | src/dataMocker.js:245-249 | `minFloat` is the larger `_getMinFloat` of the two bounds, and `maxFloat` is in [minFloat, minFloat + 2] |
| Primitives.Nudge | src/dataMocker.js:252-257 | with a non-zero gap the result is never the declared minimum, and never the declared maximum unless the bounds are exactly the gap apart; a value at neither bound is unchanged |
| Primitives.BoundedNumber | src/dataMocker.js:240-258 | the default branch takes exactly five draws |
| Primitives.NumberBase | src/dataMocker.js:222-260 | a non-empty enum gives a member; otherwise the result is a number |
| Primitives.MultipleOfValue | src/dataMocker.js:227-239 | the multipleOf mock is `m` times the multiplier, which is in [1, 5] without a maximum and whole in integer mode |
| Primitives.MultipleOfBelowMaximum | src/dataMocker.js:231-239 | with a maximum at least m > 0, the mock lies in [m, maximum] |
| Primitives.MultipleOfDegenerate | src/dataMocker.js:231-239 | with a maximum below m, or a null maximum and m > 0, the mock is exactly 0 |
| Primitives.Number | src/dataMocker.js:196-198 | an enum member when there is an enum, otherwise a number |
| Primitives.Integer | src/dataMocker.js:208-210 | an enum member when there is an enum, otherwise a number |
| Primitives.IntegerMultipleNoMaximum | src/dataMocker.js:227-239 | an integer multipleOf mock without a maximum is one of m, 2m, 3m, 4m, 5m |
| Primitives.Boolean | src/dataMocker.js:262-264 | a boolean that is true exactly when faker's draw in [0, 100000] is below 50000 |
| Primitives.NullMock | src/dataMocker.js:266-268 | a falsy non-reference value that `_magicPush` never adds |
| Engine.FirstKnown | src/dataMocker.js:57-65 | the position of the first declared type name the registry knows; none before it is known |
| Engine.CustomPropertyType | src/dataMocker.js:57-65 | none iff no declared type name is registered; otherwise the first registered one |
| Engine.ItemsRange | src/dataMocker.js:153-154 | a truthy `minItems` is used, else 0; a numeric `maxItems` is used, else 10 |
| Engine.Assemble | src/dataMocker.js:119 | storing each property's value under its name gives exactly the starting keys plus the property names |
| Engine.AssembleKeeps | src/dataMocker.js:119 | a field no property names keeps its value |
| Engine.AssembleLastWins | src/dataMocker.js:87-119 | the last property with a given name decides that field's value |
| Engine.AssembleUniform | src/dataMocker.js:90-91 | a name whose every property got the same value holds that value |
| Engine.ObjectValues | src/dataMocker.js:111 | `_.values` has one entry per field: entry i is the value of the i-th key in the enumeration order, so it holds exactly the field values |
| Engine.SampleList | src/dataMocker.js:111 | the list `_.sample` indexes into holds exactly lodash's sample space: an array's elements, an object's values, a string's characters, nothing for a scalar |
| Engine.SampleExample | src/dataMocker.js:111 | `_.sample(example())` is a member of the sample space with one draw, or undefined without a draw when the space is empty |
| Engine.ParseResult | src/dataMocker.js:15-33 | results are objects, undefined or arrays of objects; no fuel or an unclassified node gives `[]`; a structured node gives an object |
| Engine.UnionResult | src/dataMocker.js:18-21 | the union mock is an object or undefined |
| Engine.UnionRight | src/dataMocker.js:20-21 | pushing the right branch onto a pool of objects and sampling gives an object or undefined |
| Engine.ArrayResult | src/dataMocker.js:145-165 | an unregistered type gives `[]`; every element is an object |
| Engine.ItemsFold | src/dataMocker.js:157-159 | pushing parse results onto objects leaves only objects; a positive count without a component type fails |
| Engine.MockForType | src/dataMocker.js:54-126 | an unregistered type gives `{}`; a registered one has a field for every declared property name |
| Engine.FilledProperties | src/dataMocker.js:85-122 | exactly one field per declared property name |
| Engine.FillFold | src/dataMocker.js:87-120 | the filled object has exactly the starting keys plus the remaining property names |
| Engine.PropValue | src/dataMocker.js:88-115 | the discriminator property gets the discriminator value, without a draw |
| Engine.ObjectPropertyValue | src/dataMocker.js:102-109 | the object rule gives an object |
| Engine.RuntimeMock | src/dataMocker.js:67-83 | no runtime type leaves the mock unchanged; otherwise no field of the mock is lost |
| Engine.RuntimeFold | src/dataMocker.js:75-80 | merging the supertypes' mocks never loses a field |
| Engine.ItemsResult | src/dataMocker.js:157-159 | the loop produces exactly `count` parse results, each an object, undefined or an array of objects, each an object for a structured component; a missing component type fails |
| Engine.SuperMocks | src/dataMocker.js:130-132 | one `getMockForType` mock per supertype |
| Engine.PropertyValues | src/dataMocker.js:87-119 | one value per property, the discriminator value for every property with the discriminator's name |
| Engine.ParentMocks | src/dataMocker.js:75-80 | the parents' unwrapped mocks in order, as the list view of the loop; its own contract keeps the draw position monotone, and its meaning is carried by `RuntimeFoldIsMerge` (the loop merges exactly these) and `ParentMocksAreParses` (each comes from a supertype's parse) |
| Engine.ItemsFoldIsPool | src/dataMocker.js:157-159 | the `_.times` loop builds exactly the pool of the component's parse results, in order |
| Engine.SuperFoldIsMerge | src/dataMocker.js:128-133 | the supertype loop of `object` merges exactly the supertypes' mocks, in order |
| Engine.FillFoldIsAssemble | src/dataMocker.js:85-122 | the property loop stores exactly the properties' values under their names, in order |
| Engine.RuntimeFoldIsMerge | src/dataMocker.js:74-81 | the supertype loop of `runtimeParse` merges exactly the parents' mocks, in order |
| Engine.UnionPool | src/dataMocker.js:18-21 | both branches are parsed with the same discriminator value; the pool is the left branch's candidates then the right's; the mock is a member of it, or undefined when it is empty; a failing branch fails the union |
| Engine.ParseStructured | src/dataMocker.js:28-30 | a structured node's mock is exactly the object `object` builds, one draw later |
| Engine.ParseArray | src/dataMocker.js:22-27 | an array node's mock is exactly the array its first supertype builds; with no supertype it fails |
| Engine.ArrayItems | src/dataMocker.js:145-165 | the count is drawn in [minItems, maxItems]; the result is the pool of the component's parses (deduplication removes nothing); a structured component gives exactly `_.times(count)` elements |
| Engine.PoolOfParses | src/dataMocker.js:157-163 | the pool of parse results holds only objects, so `_.uniq` returns it unchanged |
| Engine.ItemsAreParses | src/dataMocker.js:157-159 | every item is what parsing the component without a discriminator value gives |
| Engine.ObjectMerge | src/dataMocker.js:128-134 | the object has the fields of its own mock and of every supertype mock; its own mock wins every field it has; among supertypes the last one with a field wins |
| Engine.SuperMocksAreMocks | src/dataMocker.js:130-132 | each merged supertype mock is that supertype's `getMockForType` mock |
| Engine.MockForTypeDiscriminator | src/dataMocker.js:90-91 | the discriminator property holds the discriminator value after `fillProperties`; the mock is the filled object with the runtime supertypes' mocks merged over it, parsed with the resolved discriminator; the value survives unless a supertype mock has that field |
| Engine.RuntimeMockDiscriminator | src/dataMocker.js:69-71 | a truthy discriminator value is used whatever the type's own value; a falsy one is replaced by the type's `discriminatorValue()` |
| Engine.RuntimeMockMerge | src/dataMocker.js:67-83 | the result has the fields of the mock and of every parent mock; the last parent mock with a field wins it; a field no parent has keeps its value |
| Engine.ParentMocksAreParses | src/dataMocker.js:75-79 | every merged mock is the fields of one element of a supertype's parse result with the discriminator value given |
| Engine.PropValueRules | src/dataMocker.js:89-114 | after the discriminator rule: a registered custom type recurses; then exactly the value of the number, integer, string or boolean generator; an object property without a runtime type fails; a sample of the example when examples exist; else the example |
| Engine.ObjectPropertyBase | src/dataMocker.js:102-109 | for a parse result that is one object, `runtimeParse` starts from exactly that object's fields; a failing parse fails the rule |
| Mocker.Parse | src/dataMocker.js:15-33 | returns exactly `Engine.ParseResult`, so `UnionPool`, `ParseStructured` and `ParseArray` describe it |
| Mocker.ParseUnion | src/dataMocker.js:18-21 | returns exactly `Engine.UnionResult`: a member of the left-then-right pool (`UnionPool`) |
| Mocker.ParseUnionRight | src/dataMocker.js:20-21 | returns exactly `Engine.UnionRight` |
| Mocker.Array | src/dataMocker.js:145-165 | returns exactly `Engine.ArrayResult`, whose count and pool `ArrayItems` states |
| Mocker.Items | src/dataMocker.js:157-159 | the loop returns exactly `Engine.ItemsFold` from the empty array: the pool of the component's parses (`ItemsFoldIsPool`) |
| Mocker.Object | src/dataMocker.js:128-134 | returns exactly `Engine.ObjectResult`, whose merge order `ObjectMerge` states |
| Mocker.GetMockForType | src/dataMocker.js:54-126 | returns exactly `Engine.MockForType` |
| Mocker.FillProperties | src/dataMocker.js:85-122 | the loop returns exactly `Engine.FilledProperties`: one field per property name, holding the last such property's value |
| Mocker.ExtendEach | src/dataMocker.js:106-108 | the loop returns the given mock with the fields of each value merged over it in order |
| Mocker.GetPropValue | src/dataMocker.js:88-115 | returns exactly `Engine.PropValue`, whose rules `PropValueRules` and `ObjectPropertyBase` state |
| Mocker.RuntimeParse | src/dataMocker.js:67-83 | returns exactly `Engine.RuntimeMock`: the given mock with the parents' mocks merged over it in order (`RuntimeMockMerge`) |

## Left out

- `module.exports` and `mock` (src/dataMocker.js:6-10, 35-37) are glue. They seed the registry and start `parse` from the parser's `runtimeDefinition()`, which is not part of this model.
- `src/index.js` is not part of this model. It covers file-system and parser I/O, asynchronous fan-out, console output and request mocking.
- randexp, `faker.lorem.words`, number-to-text and `parseFloat` are oracles constrained only by their types. `faker.random.number` is modelled on the same unit stream as lodash, although faker has its own generator.
- Numbers are reals. IEEE-754 rounding, `NaN`, infinities and `-0` are not modelled. lodash's floating `_.random` adds a tiny epsilon to the width and clamps the result to the upper bound. It is modelled as `lo + u * (hi - lo)`, which stays in the same range.
- Strings are sequences of Unicode scalar values. JavaScript indexes strings by UTF-16 code unit in `_.sample(example())` (src/dataMocker.js:111), `substr` (177) and `substring` (184), so text with a character outside the Basic Multilingual Plane is split differently there.
- No uniformity or other distribution property of the random draws is stated.
- Primitives.BoundedNumber: states only that it takes five draws. The truncated draws pass through the number-to-text and `parseFloat` oracles, so no range is claimed; boundary avoidance is stated on `Primitives.Nudge`.
- Engine.PropValue: for a registered custom type, the value is the custom type's own value by the same rules (`Engine.PropValueRules`), not a closed form.
- `fuel` bounds the recursion. When it runs out, `parse` yields `[]` and a custom-type chain yields `undefined`. The source itself recurses without bound and can loop on a cyclic registry.
- `MockValues.Fields` copies nothing from strings and arrays, unlike `_.extend`, which copies their index keys. The engine never passes either to `_.extend`: parse results are unwrapped first (src/dataMocker.js:77, 106), leaving objects and undefined, and the sources at 131 and 134 are built objects.
- `_.values` lists an object's values in JavaScript's own-key order: integer-like keys first in ascending numeric order, then the other keys in insertion order. Here the keys are enumerated in lexicographic order (`KeyOrder.SortedKeys`), so which value a given draw picks from an object may differ; the set of values sampled from is the same.
- `_.uniq` compares scalars by value and never equates two arrays or objects. This matches reference comparison for the freshly built objects that reach it.
- `def.superTypes()` of an array node is assumed to be a list. A `null` there, which would skip the array branch, is not modelled.

=== FILE: decimal.dfy ===
/**
 * The decimal-text helpers of the number generator: `_getMinFloat`, which reads how many
 * fractional digits a bound needs, and `_toFloat`, which truncates a number's decimal text.
 */
module Decimal {
  import opened Randomness

  predicate IsDigit(c: char)
  {
    '0' <= c <= '9'
  }

  predicate AllDigits(s: string)
  {
    forall k :: 0 <= k < |s| ==> IsDigit(s[k])
  }

  /** The length of the run of '0's that starts `s` (the `(0*)` group, matched greedily). */
  function LeadingZeros(s: string): (n: nat)
    ensures n <= |s|
    ensures forall k :: 0 <= k < n ==> s[k] == '0'
    ensures n < |s| ==> s[n] != '0'
  {
    if s == [] || s[0] != '0' then 0 else 1 + LeadingZeros(s[1..])
  }

  /**
   * The regular expression `/\.(0*)\d*$/` searched from position `i` on: the leftmost '.' that
   * only digits follow up to the end of the text; 1 plus its leading zeros, or 1 when none matches.
   */
  function MinFloatFrom(text: string, i: nat): (n: nat)
    requires i <= |text|
    decreases |text| - i
  {
    if i == |text| then 1
    else if text[i] == '.' && AllDigits(text[i + 1..]) then LeadingZeros(text[i + 1..]) + 1
    else MinFloatFrom(text, i + 1)
  }

  /** `_getMinFloat(num)`, applied to the number's text. */
  function GetMinFloat(text: string): (n: nat)
    ensures 1 <= n <= |text| + 1
  {
    MinFloatBounds(text, 0);
    MinFloatFrom(text, 0)
  }

  lemma {:induction false} MinFloatBounds(text: string, i: nat)
    requires i <= |text|
    ensures 1 <= MinFloatFrom(text, i) <= |text| - i + 1
    decreases |text| - i
  {
    if i < |text| && !(text[i] == '.' && AllDigits(text[i + 1..])) {
      MinFloatBounds(text, i + 1);
    }
  }

  /** Scanning past characters that are not '.' does not change the result. */
  lemma {:induction false} MinFloatSkip(text: string, i: nat, j: nat)
    requires i <= j <= |text|
    requires forall k :: i <= k < j ==> text[k] != '.'
    ensures MinFloatFrom(text, i) == MinFloatFrom(text, j)
    decreases j - i
  {
    if i < j {
      MinFloatSkip(text, i + 1, j);
    }
  }

  /** A text without a '.' (an integer, or exponent notation without a fraction) needs one digit. */
  lemma GetMinFloatNoDot(text: string)
    requires '.' !in text
    ensures GetMinFloat(text) == 1
  {
    MinFloatSkip(text, 0, |text|);
  }

  /** Decimal notation `int "." digits`: one more than the zeros right after the point. */
  lemma GetMinFloatDecimal(intPart: string, fraction: string)
    requires '.' !in intPart && AllDigits(fraction)
    ensures GetMinFloat(intPart + "." + fraction) == LeadingZeros(fraction) + 1
  {
    var text := intPart + "." + fraction;
    MinFloatSkip(text, 0, |intPart|);
    assert text[|intPart| + 1..] == fraction;
  }

  /** A '.' followed by something other than digits (as in "1.5e-7") does not match: one digit. */
  lemma GetMinFloatExponent(intPart: string, rest: string)
    requires '.' !in intPart && '.' !in rest && !AllDigits(rest)
    ensures GetMinFloat(intPart + "." + rest) == 1
  {
    var text := intPart + "." + rest;
    MinFloatSkip(text, 0, |intPart|);
    assert text[|intPart| + 1..] == rest;
    MinFloatSkip(text, |intPart| + 1, |text|);
  }

  /** `text.indexOf(c)`: the first index of `c`, or -1. */
  function IndexOf(text: string, c: char): (i: int)
    ensures -1 <= i < |text|
    ensures i == -1 <==> c !in text
    ensures 0 <= i ==> text[i] == c && c !in text[..i]
  {
    if text == [] then -1
    else if text[0] == c then 0
    else
      var j := IndexOf(text[1..], c);
      assert text[1..][..(if j < 0 then 0 else j)] == text[1..(if j < 0 then 1 else j + 1)];
      if j < 0 then -1 else j + 1
  }

  /**
   * The text step of `_toFloat(number, len)`: when the text has a '.' after its first character,
   * `num.substring(0, dotIndex + len + 1)` (the end clamped to [0, length]); otherwise the text itself.
   */
  function TruncateDecimal(text: string, len: int): (r: string)
    ensures r <= text
    ensures IndexOf(text, '.') <= 0 ==> r == text
    ensures var dot := IndexOf(text, '.');
            0 < dot && 0 <= len ==>
              && dot < |r| && r[dot] == '.'
              && (|text| - (dot + 1) <= len ==> r == text)
              && (|text| - (dot + 1) > len ==> |r| - (dot + 1) == len)
  {
    var dot := IndexOf(text, '.');
    if dot > 0 then
      var end := dot + len + 1;
      text[..if end < 0 then 0 else if end > |text| then |text| else end]
    else text
  }

  /** `_toFloat(number, len)`: parse the truncated decimal text back into a number. */
  function ToFloat(host: Host, x: real, len: int): (r: real)
    ensures var text := host.numberText(x);
            var dot := IndexOf(text, '.');
            (dot <= 0 || (0 <= len && |text| - (dot + 1) <= len)) ==> r == host.parseFloat(text)
  {
    host.parseFloat(TruncateDecimal(host.numberText(x), len))
  }
}

=== FILE: engine.dfy ===
/**
 * What the recursive engine of `SchemaMocker` computes, as functions: the `parse` dispatcher,
 * the array builder and the object builder with its helpers (`getMockForType`,
 * `getCustomPropertyType`, `fillProperties`, `getPropValue`, `runtimeParse`). The loops of the
 * source are folds here that thread the draw position from one step to the next; the methods
 * in `Mocker` run the loops and are proved to compute exactly these functions.
 *
 * Registry lookups can lead back to a type already being mocked, so everything carries a
 * `fuel` bound: `parse` spends one unit per level, as does each step along a chain of custom types.
 */
module Engine {
  import opened Wrappers
  import opened MockValues
  import opened Randomness
  import opened Schema
  import opened Primitives
  import opened KeyOrder

  // ----- helpers -----

  /** The index of the first declared type name that the registry knows, or the number of names. */
  function FirstKnown(types: Registry, names: seq<string>): (i: nat)
    ensures i <= |names|
    ensures forall j :: 0 <= j < i ==> names[j] !in types
    ensures i < |names| ==> names[i] in types
  {
    if names == [] || names[0] in types then 0 else 1 + FirstKnown(types, names[1..])
  }

  /** `getCustomPropertyType(property)`: only the first registered custom type is honoured. */
  function CustomPropertyType(types: Registry, names: seq<string>): (r: Option<TypeDecl>)
    ensures r.None? <==> forall j :: 0 <= j < |names| ==> names[j] !in types
    ensures r.Some? ==> FirstKnown(types, names) < |names| && r.value == types[names[FirstKnown(types, names)]]
  {
    var i := FirstKnown(types, names);
    if i < |names| then Some(types[names[i]]) else None
  }

  /** The names of a list of property declarations. */
  function PropertyNames(properties: seq<TypeDecl>): set<string>
  {
    set p | p in properties :: p.name
  }

  /** The number of items: `minItems || 0`, and `maxItems` unless it is null or not a number, else 10. */
  function ItemsRange(t: TypeDecl): (range: (real, real))
    ensures Truthy(t.minItems) ==> range.0 == t.minItems.n
    ensures !Truthy(t.minItems) ==> range.0 == 0.0
    ensures t.maxItems.Num? ==> range.1 == t.maxItems.n
    ensures !t.maxItems.Num? ==> range.1 == 10.0
  {
    (if Truthy(t.minItems) then t.minItems.n else 0.0, if t.maxItems.Num? then t.maxItems.n else 10.0)
  }

  /** An array type whose component is a structured type, with fuel left to build its items. */
  predicate ObjectComponent(owner: RuntimeType, fuel: nat)
  {
    0 < fuel && owner.shape.ArrayOf? && owner.shape.component.shape.Structured?
  }

  /** `runtimeParse`'s discriminator: the one passed in when truthy, else the type's own value. */
  function EffectiveDiscriminator(disc: MockValue, t: TypeDecl): MockValue
  {
    if Truthy(disc) then disc else t.discriminatorValue
  }

  /** A step of a list view: the items of one step in front of the items of the rest. */
  function Prepend<T>(xs: seq<T>, r: Result<Drawn<seq<T>>, Error>): Result<Drawn<seq<T>>, Error>
  {
    match r
    case Failure(e) => Failure(e)
    case Success(d) => Success(Drawn(xs + d.value, d.next))
  }

  lemma PropertyNamesCons(props: seq<TypeDecl>)
    requires props != []
    ensures PropertyNames(props) == {props[0].name} + PropertyNames(props[1..])
  {
    assert props == [props[0]] + props[1..];
  }

  /** The object `fillProperties` builds on `obj`: each property's value stored under its name, in order. */
  function Assemble(obj: map<string, MockValue>, props: seq<TypeDecl>, vs: seq<MockValue>): (r: map<string, MockValue>)
    requires |props| == |vs|
    ensures r.Keys == obj.Keys + PropertyNames(props)
    decreases |props|
  {
    if props == [] then obj
    else
      PropertyNamesCons(props);
      Assemble(obj[props[0].name := vs[0]], props[1..], vs[1..])
  }

  /** A field no property names keeps its value. */
  lemma {:induction false} AssembleKeeps(obj: map<string, MockValue>, props: seq<TypeDecl>, vs: seq<MockValue>, x: string)
    requires |props| == |vs| && x in obj && x !in PropertyNames(props)
    ensures Assemble(obj, props, vs)[x] == obj[x]
    decreases |props|
  {
    if props != [] {
      PropertyNamesCons(props);
      AssembleKeeps(obj[props[0].name := vs[0]], props[1..], vs[1..], x);
    }
  }

  /** The last property with a name decides that field's value. */
  lemma {:induction false} AssembleLastWins(obj: map<string, MockValue>, props: seq<TypeDecl>, vs: seq<MockValue>, i: nat)
    requires |props| == |vs| && i < |props|
    requires forall j :: i < j < |props| ==> props[j].name != props[i].name
    ensures Assemble(obj, props, vs)[props[i].name] == vs[i]
    decreases |props|
  {
    var rest := props[1..];
    if i == 0 {
      forall p | p in rest
        ensures p.name != props[0].name
      {
        var j :| 0 <= j < |rest| && rest[j] == p;
        assert props[j + 1] == p;
      }
      AssembleKeeps(obj[props[0].name := vs[0]], rest, vs[1..], props[0].name);
    } else {
      AssembleLastWins(obj[props[0].name := vs[0]], rest, vs[1..], i - 1);
    }
  }

  /** A name whose every property got the value `d` holds `d` in the assembled object. */
  lemma {:induction false} AssembleUniform(obj: map<string, MockValue>, props: seq<TypeDecl>, vs: seq<MockValue>,
                                           x: string, d: MockValue)
    requires |props| == |vs| && x in PropertyNames(props)
    requires forall i :: 0 <= i < |props| && props[i].name == x ==> vs[i] == d
    ensures Assemble(obj, props, vs)[x] == d
    decreases |props|
  {
    var next := obj[props[0].name := vs[0]];
    PropertyNamesCons(props);
    if x in PropertyNames(props[1..]) {
      AssembleUniform(next, props[1..], vs[1..], x, d);
    } else {
      AssembleKeeps(next, props[1..], vs[1..], x);
    }
  }

  // ----- sampling `example()` -----

  /** The values `_.sample` chooses among for an `example()` value. */
  ghost function SampleSpace(v: MockValue): set<MockValue>
  {
    match v
    case Arr(xs) => set x | x in xs
    case Str(s) => set c | c in s :: Str([c])
    case Obj(fields) => fields.Values
    case _ => {}
  }

  /** The one-character strings of a string. */
  function Chars(s: string): seq<MockValue>
  {
    seq(|s|, i requires 0 <= i < |s| => Str([s[i]]))
  }

  /** `_.values(object)`: one entry per field, keys in lexicographic order. */
  function ObjectValues(fields: map<string, MockValue>): (vs: seq<MockValue>)
    ensures |vs| == |fields.Keys|
    ensures forall v :: v in vs <==> v in fields.Values
    ensures forall i :: 0 <= i < |vs| ==> vs[i] == fields[SortedKeys(fields.Keys)[i]]
  {
    var keys := SortedKeys(fields.Keys);
    var vs := seq(|keys|, i requires 0 <= i < |keys| => fields[keys[i]]);
    assert forall v :: v in fields.Values ==> v in vs by {
      forall v | v in fields.Values
        ensures v in vs
      {
        var k :| k in fields && fields[k] == v;
        var i :| 0 <= i < |keys| && keys[i] == k;
        assert vs[i] == v;
      }
    }
    vs
  }

  /** The list `_.sample` indexes into: an array's elements, an object's values, a string's characters. */
  function SampleList(v: MockValue): (xs: seq<MockValue>)
    ensures forall x :: x in xs <==> x in SampleSpace(v)
  {
    match v
    case Arr(es) => es
    case Str(s) =>
      var cs := Chars(s);
      assert forall x :: x in SampleSpace(v) ==> x in cs by {
        forall x | x in SampleSpace(v)
          ensures x in cs
        {
          var c :| c in s && x == Str([c]);
          var i :| 0 <= i < |s| && s[i] == c;
          assert cs[i] == x;
        }
      }
      cs
    case Obj(fields) => ObjectValues(fields)
    case _ => []
  }

  /** `_.sample(example())`: a member of the sample space, or undefined without a draw when it is empty. */
  function SampleExample(host: Host, v: MockValue, pos: nat): (d: Drawn<MockValue>)
    ensures SampleSpace(v) == {} ==> d.value == Undefined && d.next == pos
    ensures SampleSpace(v) != {} ==> d.value in SampleSpace(v) && d.next == pos + 1
  {
    var xs := SampleList(v);
    assert xs == [] <==> SampleSpace(v) == {} by {
      if xs != [] {
        assert xs[0] in SampleSpace(v);
      }
    }
    Sample(host, xs, pos)
  }

  // ----- parse -----

  /**
   * `parse(def, discriminatorValue)`: a union samples one of its branches' candidates; an array
   * type is built from its first supertype; a structured type is built as an object and sampled
   * from a one-element pool; anything else yields the empty array. The first classification wins.
   */
  function ParseResult(types: Registry, node: RuntimeType, disc: MockValue, fuel: nat, host: Host, pos: nat)
    : (r: Result<Drawn<MockValue>, Error>)
    ensures r.Success? ==> pos <= r.value.next && Shaped(r.value.value)
    ensures fuel == 0 || node.shape.Unclassified? ==> r == Success(Drawn(Arr([]), pos))
    ensures 0 < fuel && node.shape.Structured? && r.Success? ==> r.value.value.Obj?
    decreases fuel, 1, 0
  {
    if fuel == 0 then Success(Drawn(Arr([]), pos))
    else
      match node.shape
      case UnionOf(_, _) => UnionResult(types, node, disc, fuel, host, pos)
      case ArrayOf(_) =>
        if node.superTypes == [] then Failure(NoArraySuperType(node.typeId))
        else
          (match ArrayResult(types, node.superTypes[0], fuel - 1, host, pos)
           case Failure(e) => Failure(e)
           case Success(items) => Success(Drawn(Arr(MagicPush(Arr(items.value), [])), items.next)))
      case Structured =>
        (match ObjectResult(types, node, disc, fuel - 1, host, pos)
         case Failure(e) => Failure(e)
         case Success(built) => Success(Sample(host, MagicPush(Obj(built.value), []), built.next)))
      case Unclassified => Success(Drawn(Arr([]), pos))
  }

  /**
   * The union branch of `parse`: both branches are parsed with the same discriminator value and
   * pushed into one pool, left first; one member of the pool is sampled.
   */
  function UnionResult(types: Registry, node: RuntimeType, disc: MockValue, fuel: nat, host: Host, pos: nat)
    : (r: Result<Drawn<MockValue>, Error>)
    requires node.shape.UnionOf? && 0 < fuel
    ensures r.Success? ==> pos <= r.value.next && (r.value.value.Obj? || r.value.value.Undefined?)
    decreases fuel, 0, 1
  {
    match ParseResult(types, node.shape.left, disc, fuel - 1, host, pos)
    case Failure(e) => Failure(e)
    case Success(left) => UnionRight(types, node, disc, fuel, host, MagicPush(left.value, []), left.next)
  }

  /** The right branch of a union, pushed after the left branch's candidates `pool`; then the sample. */
  function UnionRight(types: Registry, node: RuntimeType, disc: MockValue, fuel: nat, host: Host,
                      pool: seq<MockValue>, pos: nat)
    : (r: Result<Drawn<MockValue>, Error>)
    requires node.shape.UnionOf? && 0 < fuel
    requires AllObjects(pool)
    ensures r.Success? ==> pos <= r.value.next && (r.value.value.Obj? || r.value.value.Undefined?)
    decreases fuel, 0, 0
  {
    match ParseResult(types, node.shape.right, disc, fuel - 1, host, pos)
    case Failure(e) => Failure(e)
    case Success(right) => Success(Sample(host, MagicPush(right.value, pool), right.next))
  }

  // ----- array -----

  /**
   * `array(property)`: the owner type is looked up in the registry (none: the empty array);
   * a count is drawn in [minItems, maxItems], the component is parsed that many times and the
   * results pushed with `_magicPush`; with uniqueItems the result goes through `_.uniq`.
   */
  function ArrayResult(types: Registry, owner: RuntimeType, fuel: nat, host: Host, pos: nat)
    : (r: Result<Drawn<seq<MockValue>>, Error>)
    ensures r.Success? ==> pos <= r.value.next && AllObjects(r.value.value)
    ensures owner.typeId !in types ==> r == Success(Drawn([], pos))
    decreases fuel, 3, 0
  {
    if owner.typeId !in types then Success(Drawn([], pos))
    else
      var t := types[owner.typeId];
      var range := ItemsRange(t);
      var count := Random(host, range.0, range.1, false, pos);
      match ItemsFold(types, owner, [], Times(count.value), fuel, host, count.next)
      case Failure(e) => Failure(e)
      case Success(mocks) =>
        UniqSameElements(mocks.value);
        Success(Drawn(if t.uniqueItems then Uniq(mocks.value) else mocks.value, mocks.next))
  }

  /**
   * The `_.times` loop of `array`, from the array `mocks` built so far: `count` more parses of
   * the component, each pushed with `_magicPush`. Without a component type it is an error.
   */
  function ItemsFold(types: Registry, owner: RuntimeType, mocks: seq<MockValue>, count: nat, fuel: nat,
                     host: Host, pos: nat)
    : (r: Result<Drawn<seq<MockValue>>, Error>)
    ensures r.Success? ==> pos <= r.value.next
    ensures r.Success? && AllObjects(mocks) ==> AllObjects(r.value.value)
    ensures 0 < count && !owner.shape.ArrayOf? ==> r == Failure(NoComponentType(owner.typeId))
    decreases fuel, 2, count
  {
    if count == 0 then Success(Drawn(mocks, pos))
    else if !owner.shape.ArrayOf? then Failure(NoComponentType(owner.typeId))
    else
      match ParseResult(types, owner.shape.component, Undefined, fuel, host, pos)
      case Failure(e) => Failure(e)
      case Success(item) =>
        assert AllObjects(mocks) ==> AllObjects(MagicPush(item.value, mocks)) by {
          if AllObjects(mocks) {
            PushShaped(item.value, mocks);
          }
        }
        ItemsFold(types, owner, MagicPush(item.value, mocks), count - 1, fuel, host, item.next)
  }

  /** One iteration of the `_.times` loop: the component parsed, then the rest of the loop from there. */
  lemma ItemsFoldStep(types: Registry, owner: RuntimeType, mocks: seq<MockValue>, count: nat, fuel: nat, host: Host, pos: nat)
    requires 0 < count && owner.shape.ArrayOf?
    ensures var item := ParseResult(types, owner.shape.component, Undefined, fuel, host, pos);
            && (item.Failure? ==> ItemsFold(types, owner, mocks, count, fuel, host, pos) == Failure(item.error))
            && (item.Success? ==> ItemsFold(types, owner, mocks, count, fuel, host, pos)
                                  == ItemsFold(types, owner, MagicPush(item.value.value, mocks), count - 1, fuel, host, item.value.next))
  {
  }

  // ----- object -----

  /**
   * `object(definition, discriminatorValue)`: the mocks of the supertypes merged in order, then
   * the definition's own mock merged last.
   */
  function ObjectResult(types: Registry, definition: RuntimeType, disc: MockValue, fuel: nat, host: Host, pos: nat)
    : (r: Result<Drawn<map<string, MockValue>>, Error>)
    ensures r.Success? ==> pos <= r.value.next
    decreases fuel, 10, 0
  {
    match SuperFold(types, definition.superTypes, map[], disc, fuel, host, pos)
    case Failure(e) => Failure(e)
    case Success(supers) =>
      (match MockForType(types, definition, disc, fuel, host, supers.next)
       case Failure(e) => Failure(e)
       case Success(own) => Success(Drawn(supers.value + own.value, own.next)))
  }

  /** The supertypes loop of `object`, from the object `mock` merged so far: each supertype's mock merged in turn. */
  function SuperFold(types: Registry, superTypes: seq<RuntimeType>, mock: map<string, MockValue>, disc: MockValue,
                     fuel: nat, host: Host, pos: nat)
    : (r: Result<Drawn<map<string, MockValue>>, Error>)
    ensures r.Success? ==> pos <= r.value.next
    decreases fuel, 9, |superTypes|
  {
    if superTypes == [] then Success(Drawn(mock, pos))
    else
      match MockForType(types, superTypes[0], disc, fuel, host, pos)
      case Failure(e) => Failure(e)
      case Success(m) => SuperFold(types, superTypes[1..], mock + m.value, disc, fuel, host, m.next)
  }

  /**
   * `getMockForType(property)`: `{}` for an unregistered type; otherwise its properties filled,
   * then passed through `runtimeParse` with the same discriminator value.
   */
  function MockForType(types: Registry, property: RuntimeType, disc: MockValue, fuel: nat, host: Host, pos: nat)
    : (r: Result<Drawn<map<string, MockValue>>, Error>)
    ensures r.Success? ==> pos <= r.value.next
    ensures property.typeId !in types ==> r == Success(Drawn(map[], pos))
    ensures property.typeId in types && r.Success? ==> PropertyNames(types[property.typeId].properties) <= r.value.value.Keys
    decreases fuel, 8, 0
  {
    if property.typeId !in types then Success(Drawn(map[], pos))
    else
      var t := types[property.typeId];
      match FilledProperties(types, t, disc, fuel, host, pos)
      case Failure(e) => Failure(e)
      case Success(filled) => RuntimeMock(types, t, filled.value, disc, fuel, host, filled.next)
  }

  /** `fillProperties(type)`: one field per declared property, under the property's name. */
  function FilledProperties(types: Registry, t: TypeDecl, disc: MockValue, fuel: nat, host: Host, pos: nat)
    : (r: Result<Drawn<map<string, MockValue>>, Error>)
    ensures r.Success? ==> pos <= r.value.next && r.value.value.Keys == PropertyNames(t.properties)
    decreases fuel, 7, 0
  {
    FillFold(types, t, t.properties, map[], disc, fuel, host, pos)
  }

  /** The properties loop of `fillProperties`, from the object `obj` filled so far: each value stored under its name. */
  function FillFold(types: Registry, owner: TypeDecl, props: seq<TypeDecl>, obj: map<string, MockValue>,
                    disc: MockValue, fuel: nat, host: Host, pos: nat)
    : (r: Result<Drawn<map<string, MockValue>>, Error>)
    ensures r.Success? ==> pos <= r.value.next && r.value.value.Keys == obj.Keys + PropertyNames(props)
    decreases fuel, 6, |props|
  {
    if props == [] then Success(Drawn(obj, pos))
    else
      match PropValue(types, owner, props[0], disc, fuel, host, pos)
      case Failure(e) => Failure(e)
      case Success(v) =>
        PropertyNamesCons(props);
        FillFold(types, owner, props[1..], obj[props[0].name := v.value], disc, fuel, host, v.next)
  }

  /** No earlier rule of `getPropValue` applies: not the discriminator, no registered custom type. */
  predicate ByKind(types: Registry, owner: TypeDecl, property: TypeDecl)
  {
    owner.discriminator != Some(property.name) && CustomPropertyType(types, property.typeNames).None?
  }

  /**
   * `getPropValue(property)`: the first rule that applies gives the value — the discriminator
   * value for the discriminator property; the first registered custom type, recursively; the
   * number, integer, string or boolean generator; an object built from the runtime type; a
   * sample of `example()` when `examples()` is not empty; otherwise `example()` itself.
   */
  function PropValue(types: Registry, owner: TypeDecl, property: TypeDecl, disc: MockValue,
                     fuel: nat, host: Host, pos: nat)
    : (r: Result<Drawn<MockValue>, Error>)
    ensures r.Success? ==> pos <= r.value.next
    ensures owner.discriminator == Some(property.name) ==> r == Success(Drawn(disc, pos))
    decreases fuel, 5, 0
  {
    if owner.discriminator == Some(property.name) then Success(Drawn(disc, pos))
    else
      match CustomPropertyType(types, property.typeNames)
      case Some(custom) =>
        if fuel == 0 then Success(Drawn(Undefined, pos))
        else PropValue(types, owner, custom, disc, fuel - 1, host, pos)
      case None =>
        match property.kind
        case NumberDecl => Success(Number(host, property, pos))
        case IntegerDecl => Success(Integer(host, property, pos))
        case StringDecl => String(host, property, pos)
        case BooleanDecl => Success(Boolean(host, pos))
        case ObjectDecl =>
          if property.runtimeType.None? then Failure(NoRuntimeType(property.name))
          else ObjectPropertyValue(types, property, fuel, host, pos)
        case OtherDecl(_) =>
          if property.examples != [] then Success(SampleExample(host, property.example, pos))
          else Success(Drawn(property.example, pos))
  }

  /**
   * The object rule of `getPropValue`: the runtime type is parsed without a discriminator value,
   * its mocks merged into `{}`, and the result passed through `runtimeParse` of the property.
   */
  function ObjectPropertyValue(types: Registry, property: TypeDecl, fuel: nat, host: Host, pos: nat)
    : (r: Result<Drawn<MockValue>, Error>)
    requires property.runtimeType.Some?
    ensures r.Success? ==> pos <= r.value.next && r.value.value.Obj?
    decreases fuel, 4, 0
  {
    match ParseResult(types, property.runtimeType.value, Undefined, fuel, host, pos)
    case Failure(e) => Failure(e)
    case Success(st) =>
      (match RuntimeMock(types, property, MergeAll(map[], FieldsList(Unwrap(st.value))), Undefined, fuel, host, st.next)
       case Failure(e) => Failure(e)
       case Success(m) => Success(Drawn(Obj(m.value), m.next)))
  }

  /**
   * `runtimeParse(type, mock, discriminatorValue)`: every supertype of the type's runtime type is
   * parsed with the effective discriminator, and each resulting mock (each element, for an array)
   * is merged over the accumulated object in turn.
   */
  function RuntimeMock(types: Registry, t: TypeDecl, mock: map<string, MockValue>, disc: MockValue,
                       fuel: nat, host: Host, pos: nat)
    : (r: Result<Drawn<map<string, MockValue>>, Error>)
    ensures r.Success? ==> pos <= r.value.next && mock.Keys <= r.value.value.Keys
    ensures t.runtimeType.None? ==> r == Success(Drawn(mock, pos))
    decreases fuel, 3, 0
  {
    if t.runtimeType.None? then Success(Drawn(mock, pos))
    else RuntimeFold(types, t.runtimeType.value.superTypes, mock, EffectiveDiscriminator(disc, t), fuel, host, pos)
  }

  /** The supertypes loop of `runtimeParse`, from the mock merged so far: each supertype parsed and its mocks merged. */
  function RuntimeFold(types: Registry, superTypes: seq<RuntimeType>, mock: map<string, MockValue>, disc: MockValue,
                       fuel: nat, host: Host, pos: nat)
    : (r: Result<Drawn<map<string, MockValue>>, Error>)
    ensures r.Success? ==> pos <= r.value.next && mock.Keys <= r.value.value.Keys
    decreases fuel, 2, |superTypes|
  {
    if superTypes == [] then Success(Drawn(mock, pos))
    else
      match ParseResult(types, superTypes[0], disc, fuel, host, pos)
      case Failure(e) => Failure(e)
      case Success(st) =>
        var merged := MergeAll(mock, FieldsList(Unwrap(st.value)));
        MergeAllGrows(mock, FieldsList(Unwrap(st.value)));
        RuntimeFold(types, superTypes[1..], merged, disc, fuel, host, st.next)
  }

  // ----- the same loops as lists: one entry per step -----

  /** The parse results of the `_.times` loop of `array`, one per iteration, in order. */
  function ItemsResult(types: Registry, owner: RuntimeType, count: nat, fuel: nat, host: Host, pos: nat)
    : (r: Result<Drawn<seq<MockValue>>, Error>)
    ensures r.Success? ==> pos <= r.value.next && |r.value.value| == count
    ensures r.Success? ==> forall i :: 0 <= i < count ==> Shaped(r.value.value[i])
    ensures r.Success? && ObjectComponent(owner, fuel) ==> forall i :: 0 <= i < count ==> r.value.value[i].Obj?
    ensures 0 < count && !owner.shape.ArrayOf? ==> r == Failure(NoComponentType(owner.typeId))
    decreases count
  {
    if count == 0 then Success(Drawn([], pos))
    else if !owner.shape.ArrayOf? then Failure(NoComponentType(owner.typeId))
    else
      match ParseResult(types, owner.shape.component, Undefined, fuel, host, pos)
      case Failure(e) => Failure(e)
      case Success(item) => Prepend([item.value], ItemsResult(types, owner, count - 1, fuel, host, item.next))
  }

  /** The `getMockForType` mock of each supertype, in order. */
  function SuperMocks(types: Registry, superTypes: seq<RuntimeType>, disc: MockValue, fuel: nat, host: Host, pos: nat)
    : (r: Result<Drawn<seq<map<string, MockValue>>>, Error>)
    ensures r.Success? ==> pos <= r.value.next && |r.value.value| == |superTypes|
    decreases |superTypes|
  {
    if superTypes == [] then Success(Drawn([], pos))
    else
      match MockForType(types, superTypes[0], disc, fuel, host, pos)
      case Failure(e) => Failure(e)
      case Success(m) => Prepend([m.value], SuperMocks(types, superTypes[1..], disc, fuel, host, m.next))
  }

  /** The `getPropValue` value of each property of a list, in order. */
  function PropertyValues(types: Registry, owner: TypeDecl, props: seq<TypeDecl>, disc: MockValue,
                          fuel: nat, host: Host, pos: nat)
    : (r: Result<Drawn<seq<MockValue>>, Error>)
    ensures r.Success? ==> pos <= r.value.next && |r.value.value| == |props|
    ensures r.Success? ==> forall i :: 0 <= i < |props| && owner.discriminator == Some(props[i].name) ==> r.value.value[i] == disc
    decreases |props|
  {
    if props == [] then Success(Drawn([], pos))
    else
      match PropValue(types, owner, props[0], disc, fuel, host, pos)
      case Failure(e) => Failure(e)
      case Success(v) => Prepend([v.value], PropertyValues(types, owner, props[1..], disc, fuel, host, v.next))
  }

  /** The mocks `runtimeParse` merges: the fields of each element of each supertype's parse result, in order. */
  function ParentMocks(types: Registry, superTypes: seq<RuntimeType>, disc: MockValue, fuel: nat, host: Host, pos: nat)
    : (r: Result<Drawn<seq<map<string, MockValue>>>, Error>)
    ensures r.Success? ==> pos <= r.value.next
    decreases |superTypes|
  {
    if superTypes == [] then Success(Drawn([], pos))
    else
      match ParseResult(types, superTypes[0], disc, fuel, host, pos)
      case Failure(e) => Failure(e)
      case Success(st) => Prepend(FieldsList(Unwrap(st.value)), ParentMocks(types, superTypes[1..], disc, fuel, host, st.next))
  }

  /** A list of values pushed in turn onto `mocks`. */
  function PoolFrom(mocks: seq<MockValue>, r: Result<Drawn<seq<MockValue>>, Error>): Result<Drawn<seq<MockValue>>, Error>
  {
    match r
    case Failure(e) => Failure(e)
    case Success(d) => Success(Drawn(mocks + Pool(d.value), d.next))
  }

  /** A list of mocks merged in turn over `acc`. */
  function MergedFrom(acc: map<string, MockValue>, r: Result<Drawn<seq<map<string, MockValue>>>, Error>)
    : Result<Drawn<map<string, MockValue>>, Error>
  {
    match r
    case Failure(e) => Failure(e)
    case Success(d) => Success(Drawn(MergeAll(acc, d.value), d.next))
  }

  /** A list of property values stored in turn into `obj`. */
  function AssembledFrom(obj: map<string, MockValue>, props: seq<TypeDecl>, r: Result<Drawn<seq<MockValue>>, Error>)
    : Result<Drawn<map<string, MockValue>>, Error>
    requires r.Success? ==> |r.value.value| == |props|
  {
    match r
    case Failure(e) => Failure(e)
    case Success(d) => Success(Drawn(Assemble(obj, props, d.value), d.next))
  }

  /** The `_.times` loop pushes into its array exactly the pool of the component's parses. */
  lemma {:induction false} ItemsFoldIsPool(types: Registry, owner: RuntimeType, mocks: seq<MockValue>, count: nat,
                                           fuel: nat, host: Host, pos: nat)
    ensures ItemsFold(types, owner, mocks, count, fuel, host, pos) == PoolFrom(mocks, ItemsResult(types, owner, count, fuel, host, pos))
    decreases count
  {
    if count == 0 {
      assert mocks + Pool([]) == mocks;
    } else if owner.shape.ArrayOf? {
      var item := ParseResult(types, owner.shape.component, Undefined, fuel, host, pos);
      if item.Success? {
        var v := item.value.value;
        var rest := ItemsResult(types, owner, count - 1, fuel, host, item.value.next);
        ItemsFoldIsPool(types, owner, MagicPush(v, mocks), count - 1, fuel, host, item.value.next);
        if rest.Success? {
          PoolFromPush(mocks, v, rest.value.value);
        }
      }
    }
  }

  lemma PoolFromPush(mocks: seq<MockValue>, v: MockValue, vs: seq<MockValue>)
    ensures mocks + Pool([v] + vs) == MagicPush(v, mocks) + Pool(vs)
  {
    assert ([v] + vs)[0] == v && ([v] + vs)[1..] == vs;
    assert Pool([v] + vs) == Candidates(v) + Pool(vs);
  }

  /** The supertypes loop of `object` merges exactly the supertypes' mocks, in order. */
  lemma {:induction false} SuperFoldIsMerge(types: Registry, superTypes: seq<RuntimeType>, mock: map<string, MockValue>,
                                            disc: MockValue, fuel: nat, host: Host, pos: nat)
    ensures SuperFold(types, superTypes, mock, disc, fuel, host, pos) == MergedFrom(mock, SuperMocks(types, superTypes, disc, fuel, host, pos))
    decreases |superTypes|
  {
    if superTypes != [] {
      var m := MockForType(types, superTypes[0], disc, fuel, host, pos);
      if m.Success? {
        var rest := SuperMocks(types, superTypes[1..], disc, fuel, host, m.value.next);
        SuperFoldIsMerge(types, superTypes[1..], mock + m.value.value, disc, fuel, host, m.value.next);
        if rest.Success? {
          MergeAllCons(mock, m.value.value, rest.value.value);
        }
      }
    }
  }

  /** The properties loop of `fillProperties` stores exactly the properties' values, in order. */
  lemma {:induction false} FillFoldIsAssemble(types: Registry, owner: TypeDecl, props: seq<TypeDecl>, obj: map<string, MockValue>,
                                              disc: MockValue, fuel: nat, host: Host, pos: nat)
    ensures FillFold(types, owner, props, obj, disc, fuel, host, pos)
            == AssembledFrom(obj, props, PropertyValues(types, owner, props, disc, fuel, host, pos))
    decreases |props|
  {
    if props != [] {
      var v := PropValue(types, owner, props[0], disc, fuel, host, pos);
      if v.Success? {
        var x := v.value.value;
        var rest := PropertyValues(types, owner, props[1..], disc, fuel, host, v.value.next);
        FillFoldIsAssemble(types, owner, props[1..], obj[props[0].name := x], disc, fuel, host, v.value.next);
        if rest.Success? {
          var vs := rest.value.value;
          assert ([x] + vs)[0] == x && ([x] + vs)[1..] == vs;
        }
      }
    }
  }

  /** The supertypes loop of `runtimeParse` merges exactly the parents' mocks, in order. */
  lemma {:induction false} RuntimeFoldIsMerge(types: Registry, superTypes: seq<RuntimeType>, mock: map<string, MockValue>,
                                              disc: MockValue, fuel: nat, host: Host, pos: nat)
    ensures RuntimeFold(types, superTypes, mock, disc, fuel, host, pos) == MergedFrom(mock, ParentMocks(types, superTypes, disc, fuel, host, pos))
    decreases |superTypes|
  {
    if superTypes != [] {
      var st := ParseResult(types, superTypes[0], disc, fuel, host, pos);
      if st.Success? {
        var own := FieldsList(Unwrap(st.value.value));
        var rest := ParentMocks(types, superTypes[1..], disc, fuel, host, st.value.next);
        RuntimeFoldIsMerge(types, superTypes[1..], MergeAll(mock, own), disc, fuel, host, st.value.next);
        if rest.Success? {
          MergeAllAppend(mock, own, rest.value.value);
        }
      }
    }
  }

  // ----- what the engine promises -----

  /**
   * A union's pool holds the left branch's candidates, then the right branch's, both branches
   * parsed with the same discriminator value; the result is one member of the pool, or
   * undefined when the pool is empty. A failing branch makes the union fail.
   */
  lemma UnionPool(types: Registry, node: RuntimeType, disc: MockValue, fuel: nat, host: Host, pos: nat)
    requires node.shape.UnionOf? && 0 < fuel
    ensures var l := ParseResult(types, node.shape.left, disc, fuel - 1, host, pos);
            var u := UnionResult(types, node, disc, fuel, host, pos);
            && ParseResult(types, node, disc, fuel, host, pos) == u
            && (l.Failure? ==> u == Failure(l.error))
            && (l.Success? ==>
                  var rt := ParseResult(types, node.shape.right, disc, fuel - 1, host, l.value.next);
                  && (rt.Failure? ==> u == Failure(rt.error))
                  && (rt.Success? ==>
                        var pool := Candidates(l.value.value) + Candidates(rt.value.value);
                        && u.Success?
                        && (pool == [] ==> u.value == Drawn(Undefined, rt.value.next))
                        && (pool != [] ==> u.value.value in pool && u.value.next == rt.value.next + 1)))
  {
    var l := ParseResult(types, node.shape.left, disc, fuel - 1, host, pos);
    if l.Success? {
      var rt := ParseResult(types, node.shape.right, disc, fuel - 1, host, l.value.next);
      if rt.Success? {
        assert MagicPush(rt.value.value, MagicPush(l.value.value, [])) == Candidates(l.value.value) + Candidates(rt.value.value);
      }
    }
  }

  /** `parse` of a structured type is exactly the object built for it: a one-element pool yields its element. */
  lemma ParseStructured(types: Registry, node: RuntimeType, disc: MockValue, fuel: nat, host: Host, pos: nat)
    requires node.shape.Structured? && 0 < fuel
    ensures var o := ObjectResult(types, node, disc, fuel - 1, host, pos);
            var r := ParseResult(types, node, disc, fuel, host, pos);
            && (o.Failure? ==> r == Failure(o.error))
            && (o.Success? ==> r == Success(Drawn(Obj(o.value.value), o.value.next + 1)))
  {
    var o := ObjectResult(types, node, disc, fuel - 1, host, pos);
    if o.Success? {
      assert MagicPush(Obj(o.value.value), []) == [Obj(o.value.value)];
    }
  }

  /** `parse` of an array type is the array its first supertype builds; with no supertype it is an error. */
  lemma ParseArray(types: Registry, node: RuntimeType, disc: MockValue, fuel: nat, host: Host, pos: nat)
    requires node.shape.ArrayOf? && 0 < fuel
    ensures node.superTypes == [] ==> ParseResult(types, node, disc, fuel, host, pos) == Failure(NoArraySuperType(node.typeId))
    ensures node.superTypes != [] ==>
              var a := ArrayResult(types, node.superTypes[0], fuel - 1, host, pos);
              var r := ParseResult(types, node, disc, fuel, host, pos);
              && (a.Failure? ==> r == Failure(a.error))
              && (a.Success? ==> r == Success(Drawn(Arr(a.value.value), a.value.next)))
  {
    if node.superTypes != [] {
      var a := ArrayResult(types, node.superTypes[0], fuel - 1, host, pos);
      if a.Success? {
        assert MagicPush(Arr(a.value.value), []) == a.value.value;
      }
    }
  }

  /**
   * The array of a registered type: the drawn count lies between minItems and maxItems, the
   * component is parsed `_.times(count)` times, and the result is the pool of those parses —
   * `_.uniq` never removes anything, since every element is an object and objects are only the
   * same as themselves. With a structured component the array has exactly `count` objects.
   */
  lemma ArrayItems(types: Registry, owner: RuntimeType, fuel: nat, host: Host, pos: nat)
    requires owner.typeId in types
    ensures var range := ItemsRange(types[owner.typeId]);
            var count := Random(host, range.0, range.1, false, pos);
            var parts := ItemsResult(types, owner, Times(count.value), fuel, host, count.next);
            var a := ArrayResult(types, owner, fuel, host, pos);
            && Min(range.0, range.1) <= count.value <= Max(range.0, range.1)
            && (parts.Failure? ==> a == Failure(parts.error))
            && (parts.Success? ==> a == Success(Drawn(Pool(parts.value.value), parts.value.next)))
            && (parts.Success? && ObjectComponent(owner, fuel) ==> |a.value.value| == Times(count.value))
  {
    var range := ItemsRange(types[owner.typeId]);
    var count := Random(host, range.0, range.1, false, pos);
    var parts := ItemsResult(types, owner, Times(count.value), fuel, host, count.next);
    ItemsFoldIsPool(types, owner, [], Times(count.value), fuel, host, count.next);
    if parts.Success? {
      PoolOfParses(parts.value.value);
      assert [] + Pool(parts.value.value) == Pool(parts.value.value);
      if ObjectComponent(owner, fuel) {
        PoolLength(parts.value.value);
      }
    }
  }

  /** The pool of shaped values holds only objects, so `_.uniq` leaves it as it is. */
  lemma PoolOfParses(parts: seq<MockValue>)
    requires forall i :: 0 <= i < |parts| ==> Shaped(parts[i])
    ensures AllObjects(Pool(parts)) && Uniq(Pool(parts)) == Pool(parts)
  {
    var mocks := Pool(parts);
    PoolOfShaped(parts);
    assert forall i :: 0 <= i < |mocks| ==> mocks[i].Obj? by {
      forall i | 0 <= i < |mocks|
        ensures mocks[i].Obj?
      {
        assert mocks[i] in mocks;
      }
    }
    UniqOfDistinct(mocks);
  }

  /** `v` is what parsing `node` without a discriminator value gives at some position. */
  ghost predicate ParsedItem(types: Registry, node: RuntimeType, fuel: nat, host: Host, v: MockValue)
  {
    exists p: nat, q: nat :: ParseResult(types, node, Undefined, fuel, host, p) == Success(Drawn(v, q))
  }

  /** Every item of the `_.times` loop is the result of parsing the component type without a discriminator value. */
  lemma {:induction false} ItemsAreParses(types: Registry, owner: RuntimeType, count: nat, fuel: nat, host: Host, pos: nat)
    requires 0 < count && ItemsResult(types, owner, count, fuel, host, pos).Success?
    ensures owner.shape.ArrayOf?
    ensures var parts := ItemsResult(types, owner, count, fuel, host, pos).value.value;
            forall i :: 0 <= i < count ==> ParsedItem(types, owner.shape.component, fuel, host, parts[i])
    decreases count
  {
    var parts := ItemsResult(types, owner, count, fuel, host, pos).value.value;
    var item := ParseResult(types, owner.shape.component, Undefined, fuel, host, pos).value;
    var rest := ItemsResult(types, owner, count - 1, fuel, host, item.next);
    assert parts == [item.value] + rest.value.value;
    assert ParsedItem(types, owner.shape.component, fuel, host, parts[0]) by {
      assert ParseResult(types, owner.shape.component, Undefined, fuel, host, pos) == Success(Drawn(parts[0], item.next));
    }
    if 1 < count {
      ItemsAreParses(types, owner, count - 1, fuel, host, item.next);
      forall i | 1 <= i < count
        ensures ParsedItem(types, owner.shape.component, fuel, host, parts[i])
      {
        assert parts[i] == rest.value.value[i - 1];
      }
    }
  }

  /**
   * The object built for a definition has the fields of its own mock and of every supertype's
   * mock; its own mock wins every field it has, and among the supertypes the last one with a
   * field wins it.
   */
  lemma ObjectMerge(types: Registry, definition: RuntimeType, disc: MockValue, fuel: nat, host: Host, pos: nat)
    requires ObjectResult(types, definition, disc, fuel, host, pos).Success?
    ensures var supers := SuperMocks(types, definition.superTypes, disc, fuel, host, pos);
            && supers.Success?
            && var own := MockForType(types, definition, disc, fuel, host, supers.value.next);
            && own.Success?
            && var o := ObjectResult(types, definition, disc, fuel, host, pos).value.value;
            && var ms := supers.value.value;
            && (forall k :: k in o <==> k in own.value.value || exists i :: 0 <= i < |ms| && k in ms[i])
            && (forall k :: k in own.value.value ==> o[k] == own.value.value[k])
            && (forall k, i ::
                  (0 <= i < |ms| && k in ms[i] && k !in own.value.value && (forall j :: i < j < |ms| ==> k !in ms[j]))
                  ==> o[k] == ms[i][k])
  {
    SuperFoldIsMerge(types, definition.superTypes, map[], disc, fuel, host, pos);
    var ms := SuperMocks(types, definition.superTypes, disc, fuel, host, pos).value.value;
    forall k
      ensures k in MergeAll(map[], ms) <==> exists i :: 0 <= i < |ms| && k in ms[i]
    {
      MergeAllKeys(map[], ms, k);
    }
    forall k, i | 0 <= i < |ms| && k in ms[i] && (forall j :: i < j < |ms| ==> k !in ms[j])
      ensures k in MergeAll(map[], ms) && MergeAll(map[], ms)[k] == ms[i][k]
    {
      MergeAllLastWins(map[], ms, i, k);
    }
  }

  /** `m` is what `getMockForType` gives for `superType` at some position. */
  ghost predicate MockedFrom(types: Registry, superType: RuntimeType, disc: MockValue, fuel: nat, host: Host,
                             m: map<string, MockValue>)
  {
    exists p: nat, q: nat :: MockForType(types, superType, disc, fuel, host, p) == Success(Drawn(m, q))
  }

  /** Every supertype mock merged by `object` is the `getMockForType` mock of the supertype at that index. */
  lemma {:induction false} SuperMocksAreMocks(types: Registry, superTypes: seq<RuntimeType>, disc: MockValue,
                                             fuel: nat, host: Host, pos: nat)
    requires SuperMocks(types, superTypes, disc, fuel, host, pos).Success?
    ensures var ms := SuperMocks(types, superTypes, disc, fuel, host, pos).value.value;
            forall i :: 0 <= i < |superTypes| ==> MockedFrom(types, superTypes[i], disc, fuel, host, ms[i])
    decreases |superTypes|
  {
    if superTypes != [] {
      var ms := SuperMocks(types, superTypes, disc, fuel, host, pos).value.value;
      var m := MockForType(types, superTypes[0], disc, fuel, host, pos).value;
      var rest := SuperMocks(types, superTypes[1..], disc, fuel, host, m.next);
      assert ms == [m.value] + rest.value.value;
      assert MockedFrom(types, superTypes[0], disc, fuel, host, ms[0]) by {
        assert MockForType(types, superTypes[0], disc, fuel, host, pos) == Success(Drawn(ms[0], m.next));
      }
      SuperMocksAreMocks(types, superTypes[1..], disc, fuel, host, m.next);
      forall i | 1 <= i < |superTypes|
        ensures MockedFrom(types, superTypes[i], disc, fuel, host, ms[i])
      {
        assert superTypes[i] == superTypes[1..][i - 1] && ms[i] == rest.value.value[i - 1];
      }
    }
  }

  /**
   * The discriminator property of a registered type holds the discriminator value passed to
   * `object` after `fillProperties`, and keeps it in the mock unless a runtime supertype's mock
   * has a field of that name.
   */
  lemma MockForTypeDiscriminator(types: Registry, property: RuntimeType, disc: MockValue, fuel: nat, host: Host,
                                 pos: nat, q: TypeDecl)
    requires property.typeId in types
    requires q in types[property.typeId].properties && types[property.typeId].discriminator == Some(q.name)
    requires MockForType(types, property, disc, fuel, host, pos).Success?
    ensures var t := types[property.typeId];
            var filled := FilledProperties(types, t, disc, fuel, host, pos);
            && filled.Success?
            && filled.value.value[q.name] == disc
            && var m := MockForType(types, property, disc, fuel, host, pos).value.value;
            && (t.runtimeType.None? ==> m[q.name] == disc)
            && (t.runtimeType.Some? ==>
                  var ps := ParentMocks(types, t.runtimeType.value.superTypes, EffectiveDiscriminator(disc, t), fuel, host, filled.value.next);
                  && ps.Success?
                  && m == MergeAll(filled.value.value, ps.value.value)
                  && ((forall i :: 0 <= i < |ps.value.value| ==> q.name !in ps.value.value[i]) ==> m[q.name] == disc))
  {
    var t := types[property.typeId];
    var filled := FilledProperties(types, t, disc, fuel, host, pos);
    FillFoldIsAssemble(types, t, t.properties, map[], disc, fuel, host, pos);
    var vs := PropertyValues(types, t, t.properties, disc, fuel, host, pos);
    AssembleUniform(map[], t.properties, vs.value.value, q.name, disc);
    if t.runtimeType.Some? {
      var ps := ParentMocks(types, t.runtimeType.value.superTypes, EffectiveDiscriminator(disc, t), fuel, host, filled.value.next);
      RuntimeFoldIsMerge(types, t.runtimeType.value.superTypes, filled.value.value, EffectiveDiscriminator(disc, t), fuel, host, filled.value.next);
      if forall i :: 0 <= i < |ps.value.value| ==> q.name !in ps.value.value[i] {
        MergeAllKeepsAcc(filled.value.value, ps.value.value, q.name);
      }
    }
  }

  /**
   * `runtimeParse` resolves the discriminator once: a truthy value passed in is used for every
   * supertype whatever the type's own value, and a falsy one is replaced by the type's own.
   */
  lemma RuntimeMockDiscriminator(types: Registry, t: TypeDecl, mock: map<string, MockValue>, disc: MockValue,
                                 fuel: nat, host: Host, pos: nat, other: MockValue)
    ensures Truthy(disc) ==>
              RuntimeMock(types, t, mock, disc, fuel, host, pos) == RuntimeMock(types, t.(discriminatorValue := other), mock, disc, fuel, host, pos)
    ensures !Truthy(disc) ==>
              RuntimeMock(types, t, mock, disc, fuel, host, pos) == RuntimeMock(types, t, mock, t.discriminatorValue, fuel, host, pos)
  {
  }

  /**
   * The mock `runtimeParse` returns has the fields of the mock passed in and of every parent
   * mock; a parent mock overwrites the fields it has, the last one winning, and a field no
   * parent mock has keeps its value.
   */
  lemma RuntimeMockMerge(types: Registry, t: TypeDecl, mock: map<string, MockValue>, disc: MockValue,
                         fuel: nat, host: Host, pos: nat, k: string)
    requires t.runtimeType.Some? && RuntimeMock(types, t, mock, disc, fuel, host, pos).Success?
    ensures var ps := ParentMocks(types, t.runtimeType.value.superTypes, EffectiveDiscriminator(disc, t), fuel, host, pos);
            && ps.Success?
            && var r := RuntimeMock(types, t, mock, disc, fuel, host, pos).value.value;
            && var ms := ps.value.value;
            && (k in r <==> k in mock || exists i :: 0 <= i < |ms| && k in ms[i])
            && (k in mock && (forall i :: 0 <= i < |ms| ==> k !in ms[i]) ==> r[k] == mock[k])
            && (forall i :: 0 <= i < |ms| && k in ms[i] && (forall j :: i < j < |ms| ==> k !in ms[j]) ==> r[k] == ms[i][k])
  {
    RuntimeFoldIsMerge(types, t.runtimeType.value.superTypes, mock, EffectiveDiscriminator(disc, t), fuel, host, pos);
    var ms := ParentMocks(types, t.runtimeType.value.superTypes, EffectiveDiscriminator(disc, t), fuel, host, pos).value.value;
    MergeAllKeys(mock, ms, k);
    if k in mock && forall i :: 0 <= i < |ms| ==> k !in ms[i] {
      MergeAllKeepsAcc(mock, ms, k);
    }
    forall i | 0 <= i < |ms| && k in ms[i] && (forall j :: i < j < |ms| ==> k !in ms[j])
      ensures k in MergeAll(mock, ms) && MergeAll(mock, ms)[k] == ms[i][k]
    {
      MergeAllLastWins(mock, ms, i, k);
    }
  }

  /** `m` is the fields of one element of what parsing `superType` with `disc` gives at some position. */
  ghost predicate ParsedFrom(types: Registry, superType: RuntimeType, disc: MockValue, fuel: nat, host: Host,
                             m: map<string, MockValue>)
  {
    exists p: nat :: ParentMocks(types, [superType], disc, fuel, host, p).Success?
                     && m in ParentMocks(types, [superType], disc, fuel, host, p).value.value
  }

  /**
   * Every mock `runtimeParse` merges is the fields of one element of the result of parsing one
   * of the supertypes with the discriminator value given.
   */
  lemma {:induction false} ParentMocksAreParses(types: Registry, superTypes: seq<RuntimeType>, disc: MockValue,
                                               fuel: nat, host: Host, pos: nat)
    requires ParentMocks(types, superTypes, disc, fuel, host, pos).Success?
    ensures forall m :: m in ParentMocks(types, superTypes, disc, fuel, host, pos).value.value ==>
              exists i :: 0 <= i < |superTypes| && ParsedFrom(types, superTypes[i], disc, fuel, host, m)
    decreases |superTypes|
  {
    if superTypes != [] {
      var ms := ParentMocks(types, superTypes, disc, fuel, host, pos).value.value;
      var st := ParseResult(types, superTypes[0], disc, fuel, host, pos).value;
      var rest := ParentMocks(types, superTypes[1..], disc, fuel, host, st.next);
      var own := FieldsList(Unwrap(st.value));
      assert ms == own + rest.value.value;
      ParentMocksAreParses(types, superTypes[1..], disc, fuel, host, st.next);
      assert ParentMocks(types, [superTypes[0]], disc, fuel, host, pos) == Success(Drawn(own, st.next)) by {
        assert [superTypes[0]][1..] == [];
        assert own + [] == own;
      }
      forall m | m in ms
        ensures exists i :: 0 <= i < |superTypes| && ParsedFrom(types, superTypes[i], disc, fuel, host, m)
      {
        if m in own {
          assert ParsedFrom(types, superTypes[0], disc, fuel, host, m);
        } else {
          var i :| 0 <= i < |superTypes[1..]| && ParsedFrom(types, superTypes[1..][i], disc, fuel, host, m);
          assert superTypes[1..][i] == superTypes[i + 1];
        }
      }
    }
  }

  /**
   * The rules of `getPropValue` after the discriminator rule, in order: a registered custom type
   * gives its own value (undefined once the fuel is spent); then the generator of the property's
   * kind; an object property without a runtime type is an error; a property with examples gives
   * a sample of `example()`, and otherwise `example()` itself.
   */
  lemma PropValueRules(types: Registry, owner: TypeDecl, property: TypeDecl, disc: MockValue,
                       fuel: nat, host: Host, pos: nat)
    ensures var r := PropValue(types, owner, property, disc, fuel, host, pos);
            var custom := CustomPropertyType(types, property.typeNames);
            && (owner.discriminator != Some(property.name) && custom.Some? ==>
                  r == (if fuel == 0 then Success(Drawn(Undefined, pos))
                        else PropValue(types, owner, custom.value, disc, fuel - 1, host, pos)))
            && (ByKind(types, owner, property) && property.kind.NumberDecl? ==> r == Success(Number(host, property, pos)))
            && (ByKind(types, owner, property) && property.kind.IntegerDecl? ==> r == Success(Integer(host, property, pos)))
            && (ByKind(types, owner, property) && property.kind.StringDecl? ==> r == String(host, property, pos))
            && (ByKind(types, owner, property) && property.kind.BooleanDecl? ==> r == Success(Boolean(host, pos)))
            && (ByKind(types, owner, property) && property.kind.ObjectDecl? ==>
                  && (property.runtimeType.None? ==> r == Failure(NoRuntimeType(property.name)))
                  && (r.Success? ==> r.value.value.Obj?))
            && (ByKind(types, owner, property) && property.kind.OtherDecl? && property.examples != [] ==>
                  && r.Success?
                  && (SampleSpace(property.example) == {} ==> r.value.value == Undefined)
                  && (SampleSpace(property.example) != {} ==> r.value.value in SampleSpace(property.example)))
            && (ByKind(types, owner, property) && property.kind.OtherDecl? && property.examples == [] ==>
                  r == Success(Drawn(property.example, pos)))
  {
  }

  /**
   * The object rule of `getPropValue`: the fields of the parse result, merged in order (the
   * fields of the object itself when the parse gives one object), are the mock `runtimeParse`
   * starts from.
   */
  lemma ObjectPropertyBase(types: Registry, property: TypeDecl, fuel: nat, host: Host, pos: nat)
    requires property.runtimeType.Some?
    ensures var st := ParseResult(types, property.runtimeType.value, Undefined, fuel, host, pos);
            var r := ObjectPropertyValue(types, property, fuel, host, pos);
            && (st.Failure? ==> r == Failure(st.error))
            && (st.Success? && st.value.value.Obj? ==>
                  var m := RuntimeMock(types, property, st.value.value.fields, Undefined, fuel, host, st.value.next);
                  && (m.Failure? ==> r == Failure(m.error))
                  && (m.Success? ==> r == Success(Drawn(Obj(m.value.value), m.value.next))))
  {
    var st := ParseResult(types, property.runtimeType.value, Undefined, fuel, host, pos);
    if st.Success? && st.value.value.Obj? {
      var f := st.value.value.fields;
      assert FieldsList(Unwrap(st.value.value)) == [f];
      assert [f][..0] == [];
      assert MergeAll(map[], [f]) == map[] + f;
      assert map[] + f == f;
    }
  }
}

=== FILE: keyorder.dfy ===
/**
 * A fixed enumeration order for the keys of a mock object, so that `_.values` and
 * `_.sample` of an object are functions of the object: keys in lexicographic order.
 */
module KeyOrder {
  /** Lexicographic order on strings: a prefix comes first, then the first differing character decides. */
  predicate LexLe(a: string, b: string)
    decreases |a|
  {
    a == [] || (b != [] && (a[0] < b[0] || (a[0] == b[0] && LexLe(a[1..], b[1..]))))
  }

  lemma {:induction false} LexReflexive(a: string)
    ensures LexLe(a, a)
    decreases |a|
  {
    if a != [] {
      LexReflexive(a[1..]);
    }
  }

  lemma {:induction false} LexTotal(a: string, b: string)
    ensures LexLe(a, b) || LexLe(b, a)
    decreases |a|
  {
    if a != [] && b != [] && a[0] == b[0] {
      LexTotal(a[1..], b[1..]);
    }
  }

  lemma {:induction false} LexAntisymmetric(a: string, b: string)
    requires LexLe(a, b) && LexLe(b, a)
    ensures a == b
    decreases |a|
  {
    if a != [] && b != [] {
      LexAntisymmetric(a[1..], b[1..]);
      assert a == [a[0]] + a[1..] && b == [b[0]] + b[1..];
    }
  }

  lemma {:induction false} LexTransitive(a: string, b: string, c: string)
    requires LexLe(a, b) && LexLe(b, c)
    ensures LexLe(a, c)
    decreases |a|
  {
    if a != [] && b != [] && c != [] && a[0] == b[0] && b[0] == c[0] {
      LexTransitive(a[1..], b[1..], c[1..]);
    }
  }

  /** `m` comes first among the keys `s`. */
  predicate IsLeast(m: string, s: set<string>)
  {
    m in s && forall x :: x in s ==> LexLe(m, x)
  }

  lemma {:induction false} LeastExists(s: set<string>)
    requires s != {}
    ensures exists m :: IsLeast(m, s)
    decreases |s|
  {
    var y :| y in s;
    LexReflexive(y);
    if s == {y} {
      assert IsLeast(y, s);
    } else {
      LeastExists(s - {y});
      var m :| IsLeast(m, s - {y});
      LexTotal(m, y);
      if LexLe(m, y) {
        assert IsLeast(m, s);
      } else {
        forall x | x in s ensures LexLe(y, x) {
          if x != y {
            LexTransitive(y, m, x);
          }
        }
        assert IsLeast(y, s);
      }
    }
  }

  lemma LeastUnique(s: set<string>)
    ensures forall a, b :: IsLeast(a, s) && IsLeast(b, s) ==> a == b
  {
    forall a, b | IsLeast(a, s) && IsLeast(b, s) ensures a == b {
      LexAntisymmetric(a, b);
    }
  }

  /** The keys of `s`, least first: every key exactly once. */
  function SortedKeys(s: set<string>): (ks: seq<string>)
    ensures |ks| == |s|
    ensures forall k :: k in ks <==> k in s
    decreases |s|
  {
    if s == {} then []
    else
      LeastExists(s);
      LeastUnique(s);
      var m :| IsLeast(m, s);
      [m] + SortedKeys(s - {m})
  }
}

=== FILE: mocker.dfy ===
/**
 * The `SchemaMocker` engine as the source runs it: `parse`, `array` and `object` with the loops
 * of `object`'s nested helpers. Every method is proved to compute the function of `Engine` that
 * specifies it, so the facts proved there hold of what the methods return.
 */
module Mocker {
  import opened Wrappers
  import opened MockValues
  import opened Randomness
  import opened Schema
  import opened Primitives
  import opened Engine

  /** `parse(def, discriminatorValue)`. */
  method Parse(types: Registry, node: RuntimeType, disc: MockValue, fuel: nat, host: Host, pos: nat)
    returns (r: Result<Drawn<MockValue>, Error>)
    ensures r == ParseResult(types, node, disc, fuel, host, pos)
    decreases fuel, 1, 0
  {
    if fuel == 0 {
      return Success(Drawn(Arr([]), pos));
    }
    var mocks: seq<MockValue> := [];
    match node.shape {
      case UnionOf(_, _) =>
        r := ParseUnion(types, node, disc, fuel, host, pos);
      case ArrayOf(_) =>
        if node.superTypes == [] {
          return Failure(NoArraySuperType(node.typeId));
        }
        var items := Array(types, node.superTypes[0], fuel - 1, host, pos);
        if items.Failure? {
          return Failure(items.error);
        }
        mocks := MagicPush(Arr(items.value.value), mocks);
        r := Success(Drawn(Arr(mocks), items.value.next));
      case Structured =>
        var built := Object(types, node, disc, fuel - 1, host, pos);
        if built.Failure? {
          return Failure(built.error);
        }
        mocks := MagicPush(Obj(built.value.value), mocks);
        r := Success(Sample(host, mocks, built.value.next));
      case Unclassified =>
        r := Success(Drawn(Arr(mocks), pos));
    }
  }

  /** The union branch of `parse`: the left branch pushed into the pool, then the right branch. */
  method ParseUnion(types: Registry, node: RuntimeType, disc: MockValue, fuel: nat, host: Host, pos: nat)
    returns (r: Result<Drawn<MockValue>, Error>)
    requires node.shape.UnionOf? && 0 < fuel
    ensures r == UnionResult(types, node, disc, fuel, host, pos)
    decreases fuel, 0, 1
  {
    var mocks: seq<MockValue> := [];
    var left := Parse(types, node.shape.left, disc, fuel - 1, host, pos);
    if left.Failure? {
      return Failure(left.error);
    }
    mocks := MagicPush(left.value.value, mocks);
    r := ParseUnionRight(types, node, disc, fuel, host, mocks, left.value.next);
  }

  /** The right branch of the union pushed into the pool, then one member of the pool sampled. */
  method ParseUnionRight(types: Registry, node: RuntimeType, disc: MockValue, fuel: nat, host: Host,
                         mocks: seq<MockValue>, pos: nat)
    returns (r: Result<Drawn<MockValue>, Error>)
    requires node.shape.UnionOf? && 0 < fuel
    requires AllObjects(mocks)
    ensures r == UnionRight(types, node, disc, fuel, host, mocks, pos)
    decreases fuel, 0, 0
  {
    var right := Parse(types, node.shape.right, disc, fuel - 1, host, pos);
    if right.Failure? {
      return Failure(right.error);
    }
    r := Success(Sample(host, MagicPush(right.value.value, mocks), right.value.next));
  }

  /** `array(property)`: the count drawn, the items parsed and pooled, deduplicated with uniqueItems. */
  method Array(types: Registry, owner: RuntimeType, fuel: nat, host: Host, pos: nat)
    returns (r: Result<Drawn<seq<MockValue>>, Error>)
    ensures r == ArrayResult(types, owner, fuel, host, pos)
    decreases fuel, 3, 0
  {
    if owner.typeId !in types {
      return Success(Drawn([], pos));
    }
    var t := types[owner.typeId];
    var range := ItemsRange(t);
    var count := Random(host, range.0, range.1, false, pos);
    var items := Items(types, owner, Times(count.value), fuel, host, count.next);
    if items.Failure? {
      return Failure(items.error);
    }
    var mocks := items.value.value;
    if t.uniqueItems {
      mocks := Uniq(mocks);
    }
    r := Success(Drawn(mocks, items.value.next));
  }

  /** The `_.times` loop of `array`: the component parsed `count` times, each result pushed with `_magicPush`. */
  method Items(types: Registry, owner: RuntimeType, count: nat, fuel: nat, host: Host, pos: nat)
    returns (r: Result<Drawn<seq<MockValue>>, Error>)
    ensures r == ItemsFold(types, owner, [], count, fuel, host, pos)
    decreases fuel, 2
  {
    if 0 < count && !owner.shape.ArrayOf? {
      return Failure(NoComponentType(owner.typeId));
    }
    var mocks: seq<MockValue> := [];
    var next := pos;
    var i := 0;
    while i < count
      invariant i <= count
      invariant ItemsFold(types, owner, [], count, fuel, host, pos) == ItemsFold(types, owner, mocks, count - i, fuel, host, next)
    {
      var item := Parse(types, owner.shape.component, Undefined, fuel, host, next);
      ItemsFoldStep(types, owner, mocks, count - i, fuel, host, next);
      if item.Failure? {
        return Failure(item.error);
      }
      mocks := MagicPush(item.value.value, mocks);
      next, i := item.value.next, i + 1;
    }
    r := Success(Drawn(mocks, next));
  }

  /** `object(definition, discriminatorValue)`: the supertypes' mocks merged in order, then the definition's own. */
  method Object(types: Registry, definition: RuntimeType, disc: MockValue, fuel: nat, host: Host, pos: nat)
    returns (r: Result<Drawn<map<string, MockValue>>, Error>)
    ensures r == ObjectResult(types, definition, disc, fuel, host, pos)
    decreases fuel, 10
  {
    var superTypes := definition.superTypes;
    var mock: map<string, MockValue> := map[];
    var next := pos;
    var i := 0;
    assert superTypes[0..] == superTypes;
    while i < |superTypes|
      invariant i <= |superTypes|
      invariant SuperFold(types, superTypes, map[], disc, fuel, host, pos)
                == SuperFold(types, superTypes[i..], mock, disc, fuel, host, next)
    {
      var m := GetMockForType(types, superTypes[i], disc, fuel, host, next);
      if m.Failure? {
        return Failure(m.error);
      }
      assert superTypes[i..][1..] == superTypes[i + 1..];
      mock := mock + m.value.value;
      next, i := m.value.next, i + 1;
    }
    var own := GetMockForType(types, definition, disc, fuel, host, next);
    if own.Failure? {
      return Failure(own.error);
    }
    r := Success(Drawn(mock + own.value.value, own.value.next));
  }

  /** `getMockForType(property)`: `{}` when unregistered, else the filled properties through `runtimeParse`. */
  method GetMockForType(types: Registry, property: RuntimeType, disc: MockValue, fuel: nat, host: Host, pos: nat)
    returns (r: Result<Drawn<map<string, MockValue>>, Error>)
    ensures r == MockForType(types, property, disc, fuel, host, pos)
    decreases fuel, 8
  {
    if property.typeId !in types {
      return Success(Drawn(map[], pos));
    }
    var t := types[property.typeId];
    var filled := FillProperties(types, t, disc, fuel, host, pos);
    if filled.Failure? {
      return Failure(filled.error);
    }
    r := RuntimeParse(types, t, filled.value.value, disc, fuel, host, filled.value.next);
  }

  /** `fillProperties(type)`: each property's value stored under its name, in declaration order. */
  method FillProperties(types: Registry, t: TypeDecl, disc: MockValue, fuel: nat, host: Host, pos: nat)
    returns (r: Result<Drawn<map<string, MockValue>>, Error>)
    ensures r == FilledProperties(types, t, disc, fuel, host, pos)
    decreases fuel, 7
  {
    var props := t.properties;
    var obj: map<string, MockValue> := map[];
    var next := pos;
    var i := 0;
    assert props[0..] == props;
    while i < |props|
      invariant i <= |props|
      invariant FillFold(types, t, props, map[], disc, fuel, host, pos)
                == FillFold(types, t, props[i..], obj, disc, fuel, host, next)
    {
      var property := props[i];
      var v := GetPropValue(types, t, property, disc, fuel, host, next);
      if v.Failure? {
        return Failure(v.error);
      }
      assert props[i..][1..] == props[i + 1..];
      obj := obj[property.name := v.value.value];
      next, i := v.value.next, i + 1;
    }
    r := Success(Drawn(obj, next));
  }

  /** `_.each(list, x => mock = _.extend({}, mock, x))`: the fields of each value merged over `mock` in turn. */
  method ExtendEach(mock: map<string, MockValue>, each: seq<MockValue>) returns (acc: map<string, MockValue>)
    ensures acc == MergeAll(mock, FieldsList(each))
  {
    acc := mock;
    var j := 0;
    while j < |each|
      invariant j <= |each|
      invariant acc == MergeAll(mock, FieldsList(each[..j]))
    {
      assert FieldsList(each[..j + 1]) == FieldsList(each[..j]) + [Fields(each[j])];
      MergeAllSnoc(mock, FieldsList(each[..j]), Fields(each[j]));
      acc := acc + Fields(each[j]);
      j := j + 1;
    }
    assert each[..j] == each;
  }

  /** `getPropValue(property)`: the first rule that applies gives the value. */
  method GetPropValue(types: Registry, owner: TypeDecl, property: TypeDecl, disc: MockValue,
                      fuel: nat, host: Host, pos: nat)
    returns (r: Result<Drawn<MockValue>, Error>)
    ensures r == PropValue(types, owner, property, disc, fuel, host, pos)
    decreases fuel, 5
  {
    if owner.discriminator == Some(property.name) {
      return Success(Drawn(disc, pos));
    }
    var custom := CustomPropertyType(types, property.typeNames);
    if custom.Some? {
      if fuel == 0 {
        return Success(Drawn(Undefined, pos));
      }
      r := GetPropValue(types, owner, custom.value, disc, fuel - 1, host, pos);
      return;
    }
    match property.kind {
      case NumberDecl =>
        r := Success(Number(host, property, pos));
      case IntegerDecl =>
        r := Success(Integer(host, property, pos));
      case StringDecl =>
        r := String(host, property, pos);
      case BooleanDecl =>
        r := Success(Boolean(host, pos));
      case ObjectDecl =>
        if property.runtimeType.None? {
          return Failure(NoRuntimeType(property.name));
        }
        var st := Parse(types, property.runtimeType.value, Undefined, fuel, host, pos);
        if st.Failure? {
          return Failure(st.error);
        }
        var mock := ExtendEach(map[], Unwrap(st.value.value));
        var built := RuntimeParse(types, property, mock, Undefined, fuel, host, st.value.next);
        if built.Failure? {
          return Failure(built.error);
        }
        r := Success(Drawn(Obj(built.value.value), built.value.next));
      case OtherDecl(_) =>
        if property.examples != [] {
          r := Success(SampleExample(host, property.example, pos));
        } else {
          r := Success(Drawn(property.example, pos));
        }
    }
  }

  /** `runtimeParse(type, mock, discriminatorValue)`: each supertype parsed and its mocks merged in turn. */
  method RuntimeParse(types: Registry, t: TypeDecl, mock: map<string, MockValue>, disc: MockValue,
                      fuel: nat, host: Host, pos: nat)
    returns (r: Result<Drawn<map<string, MockValue>>, Error>)
    ensures r == RuntimeMock(types, t, mock, disc, fuel, host, pos)
    decreases fuel, 3, 0
  {
    var resolved := disc;
    if !Truthy(resolved) {
      resolved := t.discriminatorValue;
    }
    var acc := mock;
    var next := pos;
    if t.runtimeType.Some? {
      var superTypes := t.runtimeType.value.superTypes;
      var i := 0;
      assert superTypes[0..] == superTypes;
      while i < |superTypes|
        invariant i <= |superTypes|
        invariant RuntimeFold(types, superTypes, mock, resolved, fuel, host, pos)
                  == RuntimeFold(types, superTypes[i..], acc, resolved, fuel, host, next)
      {
        var st := Parse(types, superTypes[i], resolved, fuel, host, next);
        if st.Failure? {
          return Failure(st.error);
        }
        acc := ExtendEach(acc, Unwrap(st.value.value));
        assert superTypes[i..][1..] == superTypes[i + 1..];
        next, i := st.value.next, i + 1;
      }
    }
    r := Success(Drawn(acc, next));
  }
}

=== FILE: primitives.dfy ===
/**
 * The primitive generators of the mocker: `string`, `numberBase` with its `number` and
 * `integer` wrappers, `boolean` and `null`.
 */
module Primitives {
  import opened Wrappers
  import opened MockValues
  import opened Randomness
  import opened Decimal
  import opened Schema

  // ----- string -----

  /** A pattern is used when `pattern()` is truthy: present and not empty. */
  predicate PatternSet(pattern: Option<string>)
  {
    pattern.Some? && pattern.value != ""
  }

  /** `pattern.substr(1, pattern.length - 2)`: the pattern without its first and last character. */
  function StripDelimiters(pattern: string): (r: string)
    ensures |pattern| >= 2 ==> [pattern[0]] + r + [pattern[|pattern| - 1]] == pattern
    ensures |pattern| < 2 ==> r == ""
  {
    if |pattern| < 2 then "" else pattern[1..|pattern| - 1]
  }

  /** The characters `String.prototype.trim` removes: white space and line terminators. */
  predicate IsJsSpace(c: char)
  {
    || c == '\t' || c == '\n' || c == '\r' || c == ' '
    || c == '\U{000B}' || c == '\U{000C}' || c == '\U{00A0}' || c == '\U{1680}'
    || ('\U{2000}' <= c <= '\U{200A}')
    || c == '\U{2028}' || c == '\U{2029}' || c == '\U{202F}' || c == '\U{205F}'
    || c == '\U{3000}' || c == '\U{FEFF}'
  }

  function LeadingSpaces(s: string): (n: nat)
    ensures n <= |s|
    ensures forall k :: 0 <= k < n ==> IsJsSpace(s[k])
    ensures n < |s| ==> !IsJsSpace(s[n])
  {
    if s == [] || !IsJsSpace(s[0]) then 0 else 1 + LeadingSpaces(s[1..])
  }

  function TrailingSpaces(s: string): (n: nat)
    ensures n <= |s|
    ensures forall k :: |s| - n <= k < |s| ==> IsJsSpace(s[k])
    ensures n < |s| ==> !IsJsSpace(s[|s| - 1 - n])
  {
    if s == [] || !IsJsSpace(s[|s| - 1]) then 0 else 1 + TrailingSpaces(s[..|s| - 1])
  }

  /** `s.trim()`: the middle of `s` left once the white space around it is removed. */
  function Trim(s: string): (r: string)
    ensures |r| <= |s|
    ensures r != "" ==> !IsJsSpace(r[0]) && !IsJsSpace(r[|r| - 1])
    ensures LeadingSpaces(s) + |r| <= |s| && r == s[LeadingSpaces(s)..LeadingSpaces(s) + |r|]
    ensures forall k :: 0 <= k < LeadingSpaces(s) ==> IsJsSpace(s[k])
    ensures forall k :: LeadingSpaces(s) + |r| <= k < |s| ==> IsJsSpace(s[k])
  {
    var rest := s[LeadingSpaces(s)..];
    rest[..|rest| - TrailingSpaces(rest)]
  }

  /** `s.substring(0, n)`: the end is truncated to a whole number and clamped to [0, length]. */
  function Prefix(s: string, n: real): (r: string)
    ensures r <= s
    ensures |r| as real <= Max(n, 0.0)
    ensures 0.0 <= n && n.Floor <= |s| ==> |r| == n.Floor
    ensures |s| <= n.Floor ==> r == s
  {
    s[..if n <= 0.0 then 0 else if n.Floor > |s| then |s| else n.Floor]
  }

  /** The string length range: `minLength || 1`, and `maxLength || max(50, minLength)`. */
  function StringLengthRange(t: TypeDecl): (range: (real, real))
    ensures Truthy(t.minLength) ==> range.0 == t.minLength.n
    ensures !Truthy(t.minLength) ==> range.0 == 1.0
    ensures Truthy(t.maxLength) ==> range.1 == t.maxLength.n
    ensures !Truthy(t.maxLength) ==> range.1 == Max(50.0, range.0)
  {
    var minLength := if Truthy(t.minLength) then t.minLength.n else 1.0;
    var maxLength := if Truthy(t.maxLength) then t.maxLength.n else if minLength < 50.0 then 50.0 else minLength;
    (minLength, maxLength)
  }

  /** The drawn target length of a string without pattern or enum. */
  function StringLength(host: Host, t: TypeDecl, pos: nat): (d: Drawn<real>)
    ensures var (lo, hi) := StringLengthRange(t); Min(lo, hi) <= d.value <= Max(lo, hi)
    ensures d.next == pos + 1
  {
    var (lo, hi) := StringLengthRange(t);
    Random(host, lo, hi, false, pos)
  }

  /**
   * `string(property)`: a pattern wins (randexp on the pattern without its delimiters, failing when
   * it does not compile); then a non-empty enum; then filler words cut to the drawn length and trimmed.
   */
  function String(host: Host, t: TypeDecl, pos: nat): (r: Result<Drawn<MockValue>, Error>)
    ensures PatternSet(t.pattern) ==>
              var generated := host.randexp(StripDelimiters(t.pattern.value), pos);
              && (r.Failure? <==> generated.None?)
              && (r.Success? ==> r.value.value == Str(generated.value))
    ensures !PatternSet(t.pattern) && t.enumValues != [] ==> r.Success? && r.value.value in t.enumValues
    ensures !PatternSet(t.pattern) && t.enumValues == [] ==>
              && r.Success? && r.value.value.Str?
              && |r.value.value.s| as real <= Max(StringLength(host, t, pos).value, 0.0)
  {
    if PatternSet(t.pattern) then
      var source := StripDelimiters(t.pattern.value);
      match host.randexp(source, pos)
      case None => Failure(MalformedPattern(source))
      case Some(s) => Success(Drawn(Str(s), pos + 1))
    else if t.enumValues != [] then
      Success(Sample(host, t.enumValues, pos))
    else
      var len := StringLength(host, t, pos);
      var words := host.loremWords(len.value, len.next);
      Success(Drawn(Str(Trim(Prefix(words, len.value))), len.next + 1))
  }

  // ----- number and integer -----

  lemma MultipleBelowMaximum(m: real, x: real, k: real)
    requires 0.0 < m && k <= (x / m).Floor as real
    ensures m * k <= x
  {
    assert k <= x / m;
    assert m * k <= m * (x / m);
  }

  lemma QuotientAtLeastOne(m: real, x: real)
    requires 0.0 < m <= x
    ensures 1 <= (x / m).Floor
  {
    assert m * 1.0 <= m * (x / m);
  }

  /**
   * The multiplier range of the multipleOf branch: [1, 5]; with a maximum (null counts as 0) at
   * least `m`, [1, floor(maximum / m)]; with a smaller one, [0, 0].
   */
  function MultiplierRange(t: TypeDecl): (range: (real, real))
    requires Truthy(t.multipleOf)
    ensures t.maximum.Undefined? ==> range == (1.0, 5.0)
    ensures t.maximum.Num? && t.multipleOf.n <= t.maximum.n ==>
              range == (1.0, (t.maximum.n / t.multipleOf.n).Floor as real)
    ensures t.maximum.Num? && t.maximum.n < t.multipleOf.n ==> range == (0.0, 0.0)
    ensures t.maximum.Null? && 0.0 < t.multipleOf.n ==> range == (0.0, 0.0)
    ensures t.maximum.Null? && t.multipleOf.n < 0.0 ==> range == (1.0, 0.0)
  {
    var m := t.multipleOf.n;
    if t.maximum.Undefined? then (1.0, 5.0)
    else if t.maximum == Num(m) || FacetNumber(t.maximum) > m then (1.0, (FacetNumber(t.maximum) / m).Floor as real)
    else (0.0, 0.0)
  }

  lemma AtLeastMultiple(m: real, k: real)
    requires 0.0 < m && 1.0 <= k
    ensures m <= m * k
  {
    assert m * 1.0 <= m * k;
  }

  lemma MultiplierRangeWhole(t: TypeDecl)
    requires Truthy(t.multipleOf)
    ensures IsWhole(MultiplierRange(t).0) && IsWhole(MultiplierRange(t).1)
  {
    var m := t.multipleOf.n;
    if !t.maximum.Undefined? && (t.maximum == Num(m) || FacetNumber(t.maximum) > m) {
      var f := (FacetNumber(t.maximum) / m).Floor;
      assert (f as real).Floor == f;
    }
  }

  /** What a multiplier drawn from `MultiplierRange` makes of `multipleOf * k`. */
  lemma {:induction false} MultipleFacts(t: TypeDecl, k: real, v: real)
    requires Truthy(t.multipleOf) && v == t.multipleOf.n * k
    requires Min(MultiplierRange(t).0, MultiplierRange(t).1) <= k <= Max(MultiplierRange(t).0, MultiplierRange(t).1)
    ensures var m := t.multipleOf.n;
            && (t.maximum.Undefined? ==> 1.0 <= k <= 5.0)
            && (t.maximum.Num? && m <= t.maximum.n && 0.0 < m ==> m <= v <= t.maximum.n)
            && (t.maximum.Num? && t.maximum.n < m ==> v == 0.0)
            && (t.maximum.Null? && 0.0 < m ==> v == 0.0)
  {
    var m := t.multipleOf.n;
    if t.maximum.Num? && m <= t.maximum.n && 0.0 < m {
      var x := t.maximum.n;
      QuotientAtLeastOne(m, x);
      assert MultiplierRange(t) == (1.0, (x / m).Floor as real);
      MultipleBelowMaximum(m, x, k);
      AtLeastMultiple(m, k);
    } else if t.maximum.Num? && t.maximum.n < m {
      assert k == 0.0;
    } else if t.maximum.Null? && 0.0 < m {
      assert k == 0.0;
    }
  }

  /** The multiplier of the multipleOf branch: `_.random(multipleMin, multipleMax, floating)`. */
  function Multiplier(host: Host, t: TypeDecl, floating: bool, pos: nat): (d: Drawn<real>)
    requires Truthy(t.multipleOf)
    ensures var range := MultiplierRange(t); Min(range.0, range.1) <= d.value <= Max(range.0, range.1)
    ensures !floating ==> IsWhole(d.value)
    ensures d.next == pos + 1
  {
    var range := MultiplierRange(t);
    MultiplierRangeWhole(t);
    Random(host, range.0, range.1, floating, pos)
  }

  /** The bounds of the default branch: the declared numbers, or -99999999999 and 99999999999. */
  function NumericRange(t: TypeDecl): (range: (real, real))
    ensures t.minimum.Num? ==> range.0 == t.minimum.n
    ensures !t.minimum.Num? ==> range.0 == -99999999999.0
    ensures t.maximum.Num? ==> range.1 == t.maximum.n
    ensures !t.maximum.Num? ==> range.1 == 99999999999.0
  {
    (if t.minimum.Num? then t.minimum.n else -99999999999.0,
     if t.maximum.Num? then t.maximum.n else 99999999999.0)
  }

  /**
   * The precision budget: `minFloat` is the larger `_getMinFloat` of the two bounds' texts, and
   * `maxFloat` adds a jitter of 0 to 2.
   */
  function PrecisionBudget(host: Host, lo: real, hi: real, pos: nat): (d: Drawn<(int, int)>)
    ensures var (minFloat, maxFloat) := d.value;
            var a := GetMinFloat(host.numberText(lo));
            var b := GetMinFloat(host.numberText(hi));
            && a <= minFloat && b <= minFloat && (minFloat == a || minFloat == b)
            && minFloat <= maxFloat <= minFloat + 2
    ensures d.next == pos + 1
  {
    var minFloat := GetMinFloat(host.numberText(lo));
    var minFloat := if minFloat < GetMinFloat(host.numberText(hi)) then GetMinFloat(host.numberText(hi)) else minFloat;
    var jitter := Random(host, 0.0, 2.0, false, pos);
    Drawn((minFloat, minFloat + jitter.value.Floor), jitter.next)
  }

  /**
   * Boundary avoidance: a value equal to the declared maximum moves down by `gap`, then a value
   * equal to the declared minimum moves up by it. With a non-zero gap the result is never the
   * declared minimum, and never the declared maximum unless the bounds are exactly `gap` apart.
   */
  function Nudge(ret: real, gap: real, minimum: Facet, maximum: Facet): (r: real)
    ensures gap != 0.0 && minimum.Num? ==> r != minimum.n
    ensures gap != 0.0 && maximum.Num? && !(minimum.Num? && maximum.n - minimum.n == gap) ==> r != maximum.n
    ensures Num(ret) != minimum && Num(ret) != maximum ==> r == ret
  {
    var below := if maximum == Num(ret) then ret - gap else ret;
    if minimum == Num(below) then below + gap else below
  }

  /**
   * The default branch: truncate a draw in [minimum, maximum] to a drawn number of fractional
   * digits, then nudge it off the declared bounds by a tenth of a truncated draw in [0, gap].
   */
  function BoundedNumber(host: Host, t: TypeDecl, floating: bool, pos: nat): (d: Drawn<real>)
    ensures d.next == pos + 5
  {
    var (lo, hi) := NumericRange(t);
    var budget := PrecisionBudget(host, lo, hi, pos);
    var (minFloat, maxFloat) := budget.value;
    var gapDraw := Random(host, 0.0, hi - lo, floating, budget.next);
    var len1 := Random(host, minFloat as real, maxFloat as real, false, gapDraw.next);
    var littleGap := ToFloat(host, gapDraw.value, len1.value.Floor) / 10.0;
    var raw := Random(host, lo, hi, floating, len1.next);
    var len2 := Random(host, minFloat as real, maxFloat as real, false, raw.next);
    var ret := ToFloat(host, raw.value, len2.value.Floor);
    Drawn(Nudge(ret, littleGap, t.minimum, t.maximum), len2.next)
  }

  /** `numberBase(property, floating)`: a non-empty enum wins, then multipleOf, then the bounded draw. */
  function NumberBase(host: Host, t: TypeDecl, floating: bool, pos: nat): (d: Drawn<MockValue>)
    ensures t.enumValues != [] ==> d.value in t.enumValues
    ensures t.enumValues == [] ==> d.value.Num?
  {
    if t.enumValues != [] then Sample(host, t.enumValues, pos)
    else if Truthy(t.multipleOf) then
      var k := Multiplier(host, t, floating, pos);
      Drawn(Num(t.multipleOf.n * k.value), k.next)
    else
      var v := BoundedNumber(host, t, floating, pos);
      Drawn(Num(v.value), v.next)
  }

  /**
   * The multipleOf branch yields `m` times the drawn multiplier: in [1, 5] when no maximum is
   * declared, and a whole number in integer mode.
   */
  lemma MultipleOfValue(host: Host, t: TypeDecl, floating: bool, pos: nat)
    requires t.enumValues == [] && Truthy(t.multipleOf)
    ensures var k := Multiplier(host, t, floating, pos).value;
            && NumberBase(host, t, floating, pos).value == Num(t.multipleOf.n * k)
            && (t.maximum.Undefined? ==> 1.0 <= k <= 5.0)
            && (!floating ==> IsWhole(k))
  {
  }

  /** With a declared maximum at least `m > 0`, the multipleOf mock lies in [m, maximum]. */
  lemma {:induction false} MultipleOfBelowMaximum(host: Host, t: TypeDecl, floating: bool, pos: nat)
    requires t.enumValues == [] && Truthy(t.multipleOf)
    requires t.maximum.Num? && t.multipleOf.n <= t.maximum.n && 0.0 < t.multipleOf.n
    ensures t.multipleOf.n <= NumberBase(host, t, floating, pos).value.n <= t.maximum.n
  {
    var k := Multiplier(host, t, floating, pos).value;
    var v := NumberBase(host, t, floating, pos).value.n;
    assert v == t.multipleOf.n * k;
    MultipleFacts(t, k, v);
  }

  /**
   * With a declared maximum below `m`, the multipleOf mock is 0; so it is with a null maximum
   * (which compares as 0) when `m > 0`.
   */
  lemma {:induction false} MultipleOfDegenerate(host: Host, t: TypeDecl, floating: bool, pos: nat)
    requires t.enumValues == [] && Truthy(t.multipleOf)
    requires (t.maximum.Num? && t.maximum.n < t.multipleOf.n) || (t.maximum.Null? && 0.0 < t.multipleOf.n)
    ensures NumberBase(host, t, floating, pos).value == Num(0.0)
  {
    var k := Multiplier(host, t, floating, pos).value;
    var v := NumberBase(host, t, floating, pos).value.n;
    assert v == t.multipleOf.n * k;
    MultipleFacts(t, k, v);
  }

  /** `number(property)`: the floating generator. */
  function Number(host: Host, t: TypeDecl, pos: nat): (d: Drawn<MockValue>)
    ensures t.enumValues != [] ==> d.value in t.enumValues
    ensures t.enumValues == [] ==> d.value.Num?
  {
    NumberBase(host, t, true, pos)
  }

  /** `integer(property)`: every multiplier is a whole number. */
  function Integer(host: Host, t: TypeDecl, pos: nat): (d: Drawn<MockValue>)
    ensures t.enumValues != [] ==> d.value in t.enumValues
    ensures t.enumValues == [] ==> d.value.Num?
  {
    NumberBase(host, t, false, pos)
  }

  /** With no maximum, an integer multipleOf mock is one of m, 2m, 3m, 4m, 5m. */
  lemma IntegerMultipleNoMaximum(host: Host, t: TypeDecl, pos: nat)
    requires t.enumValues == [] && Truthy(t.multipleOf) && t.maximum.Undefined?
    ensures var m := t.multipleOf.n;
            Integer(host, t, pos).value in {Num(m), Num(2.0 * m), Num(3.0 * m), Num(4.0 * m), Num(5.0 * m)}
  {
    MultipleOfValue(host, t, false, pos);
    var k := Multiplier(host, t, false, pos).value;
    assert k.Floor as real == k && 1.0 <= k <= 5.0;
    assert k.Floor in {1, 2, 3, 4, 5};
  }

  // ----- boolean and null -----

  /** `boolean()`: `faker.random.number(100000) < 50000`. */
  function Boolean(host: Host, pos: nat): (d: Drawn<MockValue>)
    ensures d.value.Bool? && d.next == pos + 1
    ensures d.value.b <==> FakerNumber(host, 100000, pos).value < 50000
  {
    var n := FakerNumber(host, 100000, pos);
    Drawn(Bool(n.value < 50000), n.next)
  }

  /** `null()`: a falsy value, which `_magicPush` never adds to an array. */
  function NullMock(): (r: MockValue)
    ensures !Truthy(r) && !IsRef(r)
    ensures forall xs :: MagicPush(r, xs) == xs
  {
    Null
  }
}

=== FILE: randomness.dfy ===
/**
 * Everything the mocker takes from its host environment: lodash's and faker's random draws,
 * the randexp and faker text generators, and JavaScript's number/text conversions. Each draw
 * reads the position it is given and returns the next position, so a fixed host replays the
 * same mock.
 */
module Randomness {
  import opened Wrappers
  import opened MockValues

  /** A value of `Math.random()`. */
  type Unit = r: real | 0.0 <= r < 1.0

  /** The host: oracles constrained only by their types. */
  datatype Host = Host(
    unit: nat -> Unit,                         // Math.random() at a position of the stream
    randexp: (string, nat) -> Option<string>,  // randexp(pattern); None when the pattern does not compile
    loremWords: (real, nat) -> string,         // faker.lorem.words(count)
    numberText: real -> string,                // '' + number
    parseFloat: string -> real)                // parseFloat(text)

  /** A drawn value and the position of the next draw. */
  datatype Drawn<T> = Drawn(value: T, next: nat)

  predicate IsWhole(x: real)
  {
    x.Floor as real == x
  }

  function Min(a: real, b: real): real { if a <= b then a else b }

  function Max(a: real, b: real): real { if a <= b then b else a }

  lemma FloorInRange(u: Unit, n: int)
    requires n >= 1
    ensures 0 <= (u * n as real).Floor <= n - 1
  {
    assert u * n as real < n as real;
    assert 0.0 <= u * n as real;
  }

  /** lodash's floating draw: `lo + rand * (hi - lo)`. */
  function FloatingDraw(u: Unit, lo: real, hi: real): (r: real)
    requires lo <= hi
    ensures lo <= r <= hi
  {
    var w := hi - lo;
    assert u * w <= 1.0 * w;
    lo + u * w
  }

  /** lodash's `baseRandom(lo, hi)`: `lo + floor(rand * (hi - lo + 1))`. */
  function WholeDraw(u: Unit, lo: int, hi: int): (r: int)
    requires lo <= hi
    ensures lo <= r <= hi
  {
    FloorInRange(u, hi - lo + 1);
    lo + (u * (hi - lo + 1) as real).Floor
  }

  /**
   * `_.random(lower, upper, floating)`: the bounds are swapped when lower > upper; the draw is
   * a whole number when neither the flag nor a fractional bound asks for a floating one.
   */
  function Random(host: Host, lower: real, upper: real, floating: bool, pos: nat): (d: Drawn<real>)
    ensures Min(lower, upper) <= d.value <= Max(lower, upper)
    ensures !floating && IsWhole(lower) && IsWhole(upper) ==> IsWhole(d.value)
    ensures d.next == pos + 1
  {
    var lo := Min(lower, upper);
    var hi := Max(lower, upper);
    if floating || !IsWhole(lo) || !IsWhole(hi) then
      Drawn(FloatingDraw(host.unit(pos), lo, hi), pos + 1)
    else
      Drawn(WholeDraw(host.unit(pos), lo.Floor, hi.Floor) as real, pos + 1)
  }

  /** `_.sample(xs)`: undefined, without a draw, for an empty array; otherwise one of its elements. */
  function Sample(host: Host, xs: seq<MockValue>, pos: nat): (d: Drawn<MockValue>)
    ensures xs == [] ==> d.value == Undefined && d.next == pos
    ensures xs != [] ==> d.value in xs && d.next == pos + 1
  {
    if xs == [] then Drawn(Undefined, pos)
    else
      FloorInRange(host.unit(pos), |xs|);
      Drawn(xs[(host.unit(pos) * |xs| as real).Floor], pos + 1)
  }

  /** `faker.random.number(max)`: a whole number in [0, max]. */
  function FakerNumber(host: Host, max: nat, pos: nat): (d: Drawn<int>)
    ensures 0 <= d.value <= max && d.next == pos + 1
  {
    FloorInRange(host.unit(pos), max + 1);
    Drawn((host.unit(pos) * (max + 1) as real).Floor, pos + 1)
  }

  /** lodash's `MAX_SAFE_INTEGER`, 2^53 - 1. */
  const MaxSafeInteger: int := 9007199254740991

  /** How many times `_.times(n, f)` calls `f`: `n` truncated, and none below 1 or above `MAX_SAFE_INTEGER`. */
  function Times(n: real): (count: nat)
    ensures 1.0 <= n && n.Floor <= MaxSafeInteger ==> count as real <= n < count as real + 1.0
    ensures n < 1.0 || MaxSafeInteger < n.Floor ==> count == 0
    ensures count <= MaxSafeInteger
  {
    var k := n.Floor;
    if k < 1 || MaxSafeInteger < k then 0 else k
  }
}

=== FILE: schema.dfy ===
/**
 * The schema the mocker reads: the parser's runtime (nominal) types, its type declarations
 * (registry entries and property declarations alike), and the registry `mocker.types`.
 */
module Schema {
  import opened Wrappers
  import opened MockValues

  /**
   * A numeric facet as the parser reports it: undefined, null, or a number. Keeping all three
   * lets `||`, `=== null`, `!== undefined` and `_.isNumber` be modelled exactly.
   */
  type Facet = v: MockValue | v.Undefined? || v.Null? || v.Num? witness Undefined

  /** A facet as JavaScript's relational operators see it (null counts as 0). */
  function FacetNumber(f: Facet): real
    requires !f.Undefined?
  {
    if f.Null? then 0.0 else f.n
  }

  /**
   * How a runtime type classifies, in the order the dispatcher probes it: `isUnion()`, then
   * `isArray()`, then `hasStructure()`. A type that answers yes to several probes carries the first.
   */
  datatype Shape =
    | UnionOf(left: RuntimeType, right: RuntimeType)   // leftType(), rightType()
    | ArrayOf(component: RuntimeType)                  // componentType()
    | Structured
    | Unclassified

  /** A runtime type: its `typeId()`, its classification and its `superTypes()`. */
  datatype RuntimeType = RuntimeType(typeId: string, shape: Shape, superTypes: seq<RuntimeType>)

  /** What `kind()` reports for a declaration. */
  datatype Kind =
    | NumberDecl      // 'NumberTypeDeclaration'
    | IntegerDecl     // 'IntegerTypeDeclaration'
    | StringDecl      // 'StringTypeDeclaration'
    | BooleanDecl     // 'BooleanTypeDeclaration'
    | ObjectDecl      // 'ObjectTypeDeclaration'
    | OtherDecl(name: string)

  /** A type declaration: an entry of the registry or one of its property declarations. */
  datatype TypeDecl = TypeDecl(
    name: string,                          // name()
    kind: Kind,                            // kind()
    typeNames: seq<string>,                // type(): the names of the declared types
    runtimeType: Option<RuntimeType>,      // runtimeType()
    discriminator: Option<string>,         // discriminator()
    discriminatorValue: MockValue,         // discriminatorValue()
    properties: seq<TypeDecl>,             // properties()
    pattern: Option<string>,               // pattern()
    enumValues: seq<MockValue>,            // enum()
    minLength: Facet,
    maxLength: Facet,
    minimum: Facet,
    maximum: Facet,
    multipleOf: Facet,
    examples: seq<MockValue>,              // examples()
    example: MockValue,                    // example()
    minItems: Facet,
    maxItems: Facet,
    uniqueItems: bool)                     // uniqueItems() || false

  /** `mocker.types`: type declarations by type identifier, read and never written by the mocker. */
  type Registry = map<string, TypeDecl>

  /** The failures the mocker raises instead of returning a mock. */
  datatype Error =
    | MalformedPattern(pattern: string)    // randexp could not compile the pattern
    | NoArraySuperType(typeId: string)     // an array type with no supertype to take its constraints from
    | NoComponentType(typeId: string)      // an array's owner type has no component type
    | NoRuntimeType(name: string)          // an object property without a runtime type
}

=== FILE: values.dfy ===
/**
 * The untyped values the mocker produces (JavaScript values), their truthiness, and the
 * collection helpers the engine is built from: `_magicPush`, the `_.extend` merge and `_.uniq`.
 */
module MockValues {

  /** A generated JavaScript value. Objects are plain field maps; numbers are exact reals. */
  datatype MockValue =
    | Undefined
    | Null
    | Bool(b: bool)
    | Num(n: real)
    | Str(s: string)
    | Arr(elems: seq<MockValue>)
    | Obj(fields: map<string, MockValue>)

  /** JavaScript truthiness: undefined, null, false, 0 and "" are falsy; every array and object is truthy. */
  predicate Truthy(v: MockValue)
  {
    match v
    case Undefined => false
    case Null => false
    case Bool(b) => b
    case Num(n) => n != 0.0
    case Str(s) => s != ""
    case Arr(_) => true
    case Obj(_) => true
  }

  /** Arrays and objects are compared by reference in JavaScript. */
  predicate IsRef(v: MockValue)
  {
    v.Arr? || v.Obj?
  }

  /**
   * What `_magicPush` contributes to its target array for a given element: nothing for a
   * falsy element, the elements themselves for an array, the element itself otherwise.
   */
  function Candidates(el: MockValue): seq<MockValue>
  {
    if !Truthy(el) then [] else if el.Arr? then el.elems else [el]
  }

  /** `_magicPush(el, arr)`: flatten-or-append. */
  function MagicPush(el: MockValue, arr: seq<MockValue>): (r: seq<MockValue>)
    ensures !Truthy(el) ==> r == arr
    ensures el.Arr? ==> r == arr + el.elems
    ensures Truthy(el) && !el.Arr? ==> r == arr + [el]
  {
    arr + Candidates(el)
  }

  /** The array built by pushing each value of `vs`, in order, into an empty array with `_magicPush`. */
  function Pool(vs: seq<MockValue>): seq<MockValue>
  {
    if vs == [] then [] else Candidates(vs[0]) + Pool(vs[1..])
  }

  /** Pushing one more value with `_magicPush` extends the pool by that value's candidates. */
  lemma {:induction false} PoolSnoc(vs: seq<MockValue>, v: MockValue)
    ensures Pool(vs + [v]) == MagicPush(v, Pool(vs))
    decreases |vs|
  {
    if vs == [] {
      assert [] + [v] == [v] && [v][1..] == [];
    } else {
      assert (vs + [v])[0] == vs[0] && (vs + [v])[1..] == vs[1..] + [v];
      PoolSnoc(vs[1..], v);
    }
  }

  /** When every pushed value is a single truthy non-array value, the pool is the values themselves. */
  lemma {:induction false} PoolLength(vs: seq<MockValue>)
    requires forall i :: 0 <= i < |vs| ==> Truthy(vs[i]) && !vs[i].Arr?
    ensures |Pool(vs)| == |vs|
    ensures Pool(vs) == vs
  {
    if vs != [] {
      PoolLength(vs[1..]);
      assert [vs[0]] + vs[1..] == vs;
    }
  }

  /**
   * The shapes `parse` can return: an object, undefined (a sample from an empty pool),
   * or an array whose elements are objects.
   */
  predicate Shaped(v: MockValue)
  {
    v.Obj? || v.Undefined? || (v.Arr? && AllObjects(v.elems))
  }

  /** Every element is an object. */
  predicate AllObjects(xs: seq<MockValue>)
  {
    forall e :: e in xs ==> e.Obj?
  }

  /** Pushing shaped values only ever adds objects. */
  lemma {:induction false} PoolOfShaped(vs: seq<MockValue>)
    requires forall i :: 0 <= i < |vs| ==> Shaped(vs[i])
    ensures AllObjects(Pool(vs))
  {
    if vs != [] {
      PoolOfShaped(vs[1..]);
    }
  }

  /** Pushing a shaped value into an array of objects leaves an array of objects. */
  lemma PushShaped(el: MockValue, arr: seq<MockValue>)
    requires Shaped(el) && AllObjects(arr)
    ensures AllObjects(MagicPush(el, arr))
  {
  }

  /** `_.isArray(x) ? x : [x]`. */
  function Unwrap(v: MockValue): (r: seq<MockValue>)
    ensures Shaped(v) ==> forall e :: e in r ==> e.Obj? || e.Undefined?
    ensures v in r || v == Arr(r)
    ensures !v.Arr? ==> |r| == 1
  {
    if v.Arr? then v.elems else [v]
  }

  /**
   * The own fields `_.extend` copies from a source value. Only objects contribute here, whereas
   * lodash would also copy the index keys of a string or an array source. The engine never extends
   * with either: a parse result is first unwrapped with `_.isArray(x) ? x : [x]` (see `Unwrap`),
   * which leaves objects and undefined (see `Shaped`), and the other sources are built objects.
   */
  function Fields(v: MockValue): map<string, MockValue>
  {
    if v.Obj? then v.fields else map[]
  }

  /** The fields each value of a list contributes to `_.extend`, in order. */
  function FieldsList(vs: seq<MockValue>): (ms: seq<map<string, MockValue>>)
  {
    seq(|vs|, i requires 0 <= i < |vs| => Fields(vs[i]))
  }

  /** `_.extend({}, acc, m1, ..., mn)` applied one source at a time: later sources overwrite earlier fields. */
  function MergeAll(acc: map<string, MockValue>, ms: seq<map<string, MockValue>>): map<string, MockValue>
  {
    if ms == [] then acc else MergeAll(acc, ms[..|ms| - 1]) + ms[|ms| - 1]
  }

  lemma MergeAllSnoc(acc: map<string, MockValue>, ms: seq<map<string, MockValue>>, m: map<string, MockValue>)
    ensures MergeAll(acc, ms + [m]) == MergeAll(acc, ms) + m
  {
    assert (ms + [m])[..|ms|] == ms;
  }

  /** Merging two lists of sources one after the other is merging their concatenation. */
  lemma {:induction false} MergeAllAppend(acc: map<string, MockValue>, ms: seq<map<string, MockValue>>,
                                          more: seq<map<string, MockValue>>)
    ensures MergeAll(acc, ms + more) == MergeAll(MergeAll(acc, ms), more)
    decreases |more|
  {
    if more == [] {
      assert ms + more == ms;
    } else {
      var init := more[..|more| - 1];
      MergeAllAppend(acc, ms, init);
      assert (ms + more)[..|ms + more| - 1] == ms + init;
    }
  }

  /** Merging a first source, then the rest, is merging the whole list. */
  lemma MergeAllCons(acc: map<string, MockValue>, m: map<string, MockValue>, ms: seq<map<string, MockValue>>)
    ensures MergeAll(acc, [m] + ms) == MergeAll(acc + m, ms)
  {
    MergeAllAppend(acc, [m], ms);
    assert [m][..0] == [];
  }

  /** The merged object has exactly the keys of the accumulator and of every source. */
  lemma {:induction false} MergeAllKeys(acc: map<string, MockValue>, ms: seq<map<string, MockValue>>, k: string)
    ensures k in MergeAll(acc, ms) <==> (k in acc || exists i :: 0 <= i < |ms| && k in ms[i])
  {
    if ms != [] {
      var init := ms[..|ms| - 1];
      MergeAllKeys(acc, init, k);
      if k in ms[|ms| - 1] {
      } else {
        assert (exists i :: 0 <= i < |ms| && k in ms[i]) <==> (exists i :: 0 <= i < |init| && k in init[i]) by {
          if exists i :: 0 <= i < |ms| && k in ms[i] {
            var i :| 0 <= i < |ms| && k in ms[i];
            assert i < |init| && init[i] == ms[i];
          }
        }
      }
    }
  }

  /** Merging never loses a field of the accumulator. */
  lemma MergeAllGrows(acc: map<string, MockValue>, ms: seq<map<string, MockValue>>)
    ensures acc.Keys <= MergeAll(acc, ms).Keys
  {
    forall k | k in acc
      ensures k in MergeAll(acc, ms)
    {
      MergeAllKeys(acc, ms, k);
    }
  }

  /** The last source that has a field decides its value. */
  lemma {:induction false} MergeAllLastWins(acc: map<string, MockValue>, ms: seq<map<string, MockValue>>, i: nat, k: string)
    requires i < |ms| && k in ms[i]
    requires forall j :: i < j < |ms| ==> k !in ms[j]
    ensures k in MergeAll(acc, ms) && MergeAll(acc, ms)[k] == ms[i][k]
  {
    if i < |ms| - 1 {
      var init := ms[..|ms| - 1];
      MergeAllLastWins(acc, init, i, k);
      assert k !in ms[|ms| - 1];
    }
  }

  /** A field no source has keeps the accumulator's value. */
  lemma {:induction false} MergeAllKeepsAcc(acc: map<string, MockValue>, ms: seq<map<string, MockValue>>, k: string)
    requires k in acc
    requires forall j :: 0 <= j < |ms| ==> k !in ms[j]
    ensures k in MergeAll(acc, ms) && MergeAll(acc, ms)[k] == acc[k]
  {
    if ms != [] {
      MergeAllKeepsAcc(acc, ms[..|ms| - 1], k);
    }
  }

  /** SameValueZero as `_.uniq` applies it: scalars by value, arrays and objects by reference (never equal here). */
  predicate Same(a: MockValue, b: MockValue)
  {
    !IsRef(a) && a == b
  }

  /** `_.uniq(xs)`: drop every element that is the same as an earlier one, keeping first occurrences in order. */
  function Uniq(xs: seq<MockValue>): seq<MockValue>
  {
    if xs == [] then []
    else
      var kept := Uniq(xs[..|xs| - 1]);
      var x := xs[|xs| - 1];
      if !IsRef(x) && x in kept then kept else kept + [x]
  }

  /** `_.uniq` leaves no two elements that are the same. */
  lemma {:induction false} UniqNoDuplicates(xs: seq<MockValue>)
    ensures forall i, j :: 0 <= i < j < |Uniq(xs)| ==> !Same(Uniq(xs)[i], Uniq(xs)[j])
  {
    if xs != [] {
      UniqNoDuplicates(xs[..|xs| - 1]);
    }
  }

  /** `_.uniq` keeps every element it was given and invents none. */
  lemma {:induction false} UniqSameElements(xs: seq<MockValue>)
    ensures forall x :: x in Uniq(xs) <==> x in xs
    ensures |Uniq(xs)| <= |xs|
  {
    if xs != [] {
      var init := xs[..|xs| - 1];
      UniqSameElements(init);
      assert xs == init + [xs[|xs| - 1]];
    }
  }

  /** First-occurrence order: deduplicating a longer array only appends to the deduplicated prefix. */
  lemma {:induction false} UniqPrefix(a: seq<MockValue>, b: seq<MockValue>)
    ensures Uniq(a) <= Uniq(a + b)
  {
    if b != [] {
      var init := b[..|b| - 1];
      UniqPrefix(a, init);
      assert (a + b)[..|a + b| - 1] == a + init;
    } else {
      assert a + b == a;
    }
  }

  /** An array with no two same elements is left as it is. */
  lemma {:induction false} UniqOfDistinct(xs: seq<MockValue>)
    requires forall i, j :: 0 <= i < j < |xs| ==> !Same(xs[i], xs[j])
    ensures Uniq(xs) == xs
  {
    if xs != [] {
      var init := xs[..|xs| - 1];
      UniqOfDistinct(init);
      assert init + [xs[|xs| - 1]] == xs;
    }
  }
}

=== FILE: wrappers.dfy ===
/** Option and Result, used for the values the parser may not supply and for the failures the engine raises. */
module Wrappers {

  datatype Option<+T> = None | Some(value: T)

  datatype Result<+T, +E> = Success(value: T) | Failure(error: E)
}
